=== FILE: README.md ===
# CodeSync event-handling core in Dafny

CodeSync is a collaborative code editor. Participants join a room through a relay
(a socket.io server). They share the editor's language, code, input and output. They
see each other's cursors, and they can start a two-party video call signalled through
the same relay.

This project models the client-side state behind those features. Each socket, timer
or media callback is a pure `event → state` function. Time is an explicit integer
parameter, and the relay connection is a record with a listener table and an
append-only outbox of sent messages. Media streams and peer connections are opaque
records. Every handler runs atomically.

Modules, one per source unit:

| module | file | models |
|---|---|---|
| `Base` | base.dfy | optional values, JavaScript truthiness of optional strings, `trim()` blankness, the signed 32-bit wrap, the 5 s response timer and a list of pending timers |
| `Relay` | relay.dfy | `src/lib/socket-client.ts`: the lazily created connection, `joinRoom`, `checkRoomExists` with its deferred send, the cursor emitters |
| `Cursors` | cursors.dfy | `src/components/collaborative-cursor.tsx`: the colour hash, the cursor map and its handlers, the stale sweep, the render guard |
| `Execution` | execution.dfy | `src/app/api/execution.ts`: the forwarded body, result selection, error normalisation |
| `Session` | session.dfy | `src/app/editor/page.tsx`: language, code, input, output and running flag; `runCode`; replication to the other participant |
| `Call` | call.dfy | `src/components/video-call.tsx`: call flags, status, remote user, local stream, peer connection, every call handler |
| `Attempt` | attempt.dfy | what the join/create flows share: relay responses, callback tokens, messages |
| `JoinHook` | joinhook.dfy | `src/hooks/joinroom.ts`: check, then join, as a promise that settles once |
| `JoinForm` | joinform.dfy | `src/components/join-room-form.tsx`: `handleJoinRoom` |
| `NavbarJoin` | navbar.dfy | `src/components/navbar.tsx`: `handleJoinRoom` and the dialog reset |
| `CreateForm` | createform.dfy | `src/components/create-room-form.tsx`: `handleCreateRoom` and unmount |
| `CreateHook` | createhook.dfy | `src/hooks/createroom.ts`: database gate, then join |

How the pieces are represented:

- **Relay connection.** `Relay.Client` is the module-level slot. Each connection it
  opens carries an `id`, so a fresh connection is distinguishable from an old one.
- **Listeners.** The listener table holds the one-shot response topics only. A
  listener is either a caller's callback, named by a token, or the deferred
  `check-room` send.
- **Flow callbacks.** Each flow maps the callback tokens to the bodies of its closures.
  When a relay response arrives, the flow runs the callbacks the table fires for it.
- **Media leaks.** The call model keeps every stream and peer connection the component
  dropped from its references, in the state they were left in. This makes the leaks
  of the teardown paths visible.

Behaviours of the code worth stating plainly:

- **ICE failure.** ICE `disconnected`/`failed` only resets the call flags and the
  remote user; the local tracks keep running and the peer connection stays open
  (`Call.OnIceState`, `Call.TeardownAsymmetry`).
- **Page run path.** The editor page calls the sandbox directly, not through
  `/api/execution`. Both use the same result chain, so `Session.RunCode` reuses
  `Execution.SelectResult`.
- **Timers of repeated attempts.** The navbar dialog and the create form arm a new
  5 s timer on every attempt, and the replaced callbacks of an earlier attempt can
  no longer clear its timer. Both flows keep the list of pending timers, so an
  earlier attempt's timeout still fires during or after a later one
  (`NavbarJoin.DoubleSubmitLateTimeout`, `CreateForm.RepeatClickEndsBusyEarly`).

## Model

| member | source | states |
|---|---|---|
| Base.TrimEmptyIffBlank | src/components/join-room-form.tsx:20-23 | `!id.trim()` holds exactly when the id is empty or made only of ECMAScript white space, in both directions |
| Base.CoalesceIsFirstTruthy | src/app/api/execution.ts:22 | a left-to-right chain of JavaScript or-operators ending in a fallback yields the first truthy operand, and the fallback exactly when no operand is truthy |
| Base.ToInt32 | src/components/collaborative-cursor.tsx:66-69 | the wrap applied by `<<` and `&` is a signed 32-bit value congruent to its argument modulo 2^32 |
| Base.FireDue | src/components/navbar.tsx:40-43 | at time `now` every due `setTimeout` fires and is gone, and no pending timer is left due; timers not yet due keep their deadlines |
| Base.FireDueLatest | src/components/create-room-form.tsx:25-28 | firing twice at the same time is firing once, and a timer armed last is untouched before its own deadline whatever happens to the earlier ones |
| Relay.GetSocket | src/lib/socket-client.ts:5-18 | an existing connection is returned unchanged; only an empty slot opens a new, unconnected connection with the fixed options and the configured URL or `http://localhost:8000` |
| Relay.GetSocketIdempotent | src/lib/socket-client.ts:5-18 | two calls with nothing in between give the same connection, and the second changes nothing |
| Relay.Disconnect | src/lib/socket-client.ts:20-25 | the slot is emptied; on an empty slot nothing changes |
| Relay.DisconnectThenGetIsFresh | src/lib/socket-client.ts:5-25 | after a disconnect, the next `getSocket` opens a connection different from every earlier one, with no listeners and nothing sent |
| Relay.JoinRoom | src/lib/socket-client.ts:27-52 | exactly one listener each for `room-joined` and `room-not-available`; other topics untouched; exactly one `join-room {roomId, userId, isCreating}` appended; `isCreating` defaults to false |
| Relay.JoinRoomSingleShot | src/lib/socket-client.ts:36-49 | whatever was registered before, one response invokes exactly the latest callback, once |
| Relay.CheckRoomExists | src/lib/socket-client.ts:54-85 | exactly one listener each for `room-exists` and `room-not-exists`; connected: one `check-room` sent now; not connected: nothing sent and a connect listener added |
| Relay.CheckRoomSingleShot | src/lib/socket-client.ts:61-74 | one existence response invokes exactly the latest callback, once |
| Relay.OnConnect | src/lib/socket-client.ts:79-83 | on connect, every deferred listener sends its `check-room`, in registration order |
| Relay.CheckRoomWhileDisconnected | src/lib/socket-client.ts:77-84 | one call while disconnected sends nothing and adds one pending `check-room` |
| Relay.DeferredCheckRooms | src/lib/socket-client.ts:77-84 | N calls while disconnected send nothing and leave N pending `check-room` messages, in call order |
| Relay.DeferredCheckRoomsOnConnect | src/lib/socket-client.ts:77-84 | the first connect sends the N messages; a second connect sends all N again, because the listeners are never removed |
| Relay.EmitCursorMove | src/lib/socket-client.ts:88-101 | exactly one `cursor-move` appended, carrying the given room, position, user and user info |
| Relay.EmitCursorSelection | src/lib/socket-client.ts:103-121 | exactly one `cursor-selection` appended, carrying the given payload |
| Relay.EmitCursorVisibility | src/lib/socket-client.ts:123-136 | exactly one `cursor-visibility` appended, carrying the given payload |
| Cursors.HashStep | src/components/collaborative-cursor.tsx:66-69 | `(a << 5) - a + code` then `& a` equals the 32-bit wrap of `31·a + code` |
| Cursors.HashIsWrappedPoly | src/components/collaborative-cursor.tsx:66-69 | wrapping after every character gives the 32-bit wrap of the exact base-31 polynomial of the character codes |
| Cursors.ComputeHash | src/components/collaborative-cursor.tsx:66-69 | the left-to-right loop computes the same hash, which is the wrapped polynomial |
| Cursors.ColorIndex | src/components/collaborative-cursor.tsx:71 | `Math.abs(hash) % 15` is a valid palette index |
| Cursors.ColorOf | src/components/collaborative-cursor.tsx:45-72 | the colour is a palette entry fixed by the user id; the empty id gets `#FF6B6B` |
| Cursors.Update | src/components/collaborative-cursor.tsx:206-220 | the record becomes existing-or-empty overridden field by field by the update, stamped `now`; every other key is unchanged |
| Cursors.Remove | src/components/collaborative-cursor.tsx:222-228 | only the given key disappears; other records unchanged; an absent key changes nothing |
| Cursors.RemoveIdempotent | src/components/collaborative-cursor.tsx:222-228 | removing twice equals removing once |
| Cursors.OnCursorMove | src/components/collaborative-cursor.tsx:233-250 | the position is replaced, the record is visible, its selection is kept, other keys unchanged |
| Cursors.OnCursorSelection | src/components/collaborative-cursor.tsx:252-269 | the selection is replaced, the record is visible, its position is kept, other keys unchanged |
| Cursors.OnCursorVisibility | src/components/collaborative-cursor.tsx:271-291 | hiding removes the record outright; showing upserts it as visible and keeps position and selection |
| Cursors.Deliver | src/components/collaborative-cursor.tsx:233-314 | a forwarded cursor message reaches the handler of its kind under the sender's connection id: a move or selection leaves a visible record with that payload, a visibility message leaves a record exactly when it shows the cursor, other records and other messages change nothing |
| Cursors.EmittedCursorsArrive | src/lib/socket-client.ts:88-136 | the message each cursor emitter sends, once delivered, runs the matching receiving handler on the same payload |
| Cursors.OnUserLeft | src/components/collaborative-cursor.tsx:293-295 | the leaving connection's record is removed, nothing else |
| Cursors.Sweep | src/components/collaborative-cursor.tsx:298-309 | a record survives exactly when `now - lastUpdate <= 10000`; survivors are unchanged |
| Cursors.SweepIdempotent | src/components/collaborative-cursor.tsx:298-309 | a second sweep at the same time removes nothing more |
| Cursors.StaleGoneWithinOneInterval | src/components/collaborative-cursor.tsx:298-309 | with sweeps every 5 s, a record is gone by the first sweep after it turns stale, at most 5 s after that |
| Cursors.HandlersPreserveWellFormed | src/components/collaborative-cursor.tsx:233-309 | every stored record is visible and names its user, under all four handlers and the sweep |
| Cursors.RenderedRecords | src/components/collaborative-cursor.tsx:92 | a stored record is drawn exactly when both it and its debounced copy have a position |
| Cursors.SelectionOnlyNeverRenders | src/components/collaborative-cursor.tsx:92 | a record that only received a selection is never drawn |
| Execution.Forward | src/app/api/execution.ts:13-18 | the sandbox body keeps the language, asks for any version, has one file `main` holding the code, and passes the input as stdin |
| Execution.ForwardLosesNothing | src/app/api/execution.ts:13-18 | two requests are forwarded identically exactly when they are equal |
| Execution.SelectResult | src/app/api/execution.ts:22 | the chosen result is never empty |
| Execution.SelectResultIsFirstTruthy | src/app/api/execution.ts:22 | the result is the first truthy of output, stdout, stderr, else `No output`; a missing `run` gives `No output` |
| Execution.ErrorMessage | src/app/api/execution.ts:25-32 | an Error gives its message, a string itself, anything else `Unknown error` |
| Execution.Post | src/app/api/execution.ts:22-33 | a reply is a non-empty result exactly when the sandbox answered; otherwise an error with status 500 |
| Session.Init | src/app/editor/page.tsx:140-146 | the page opens on javascript with its starter code, empty input and output, not running |
| Session.SwitchLanguage | src/app/editor/page.tsx:176-181 | a language in the starter table is taken together with its snippet; any other value changes nothing |
| Session.LocalLanguageChange | src/app/editor/page.tsx:172-182 | `change-language` is always sent, even for an unsupported value; only a supported one changes language and code |
| Session.RemoteLanguageChanged | src/app/editor/page.tsx:275-283 | the same gate on a received change; nothing is sent |
| Session.LocalCodeChange | src/app/editor/page.tsx:260-264 | the code is replaced and exactly one `code-changed` is sent |
| Session.LocalInputChange | src/app/editor/page.tsx:266-270 | the input is replaced and exactly one `input-changed` is sent |
| Session.ClearInput | src/app/editor/page.tsx:614 | the input becomes empty and nothing is sent |
| Session.RemoteCodeChanged | src/app/editor/page.tsx:295-297 | the code is replaced wholesale; nothing else changes |
| Session.RemoteInputChanged | src/app/editor/page.tsx:309-311 | the input is replaced wholesale; nothing else changes |
| Session.RemoteCodeRun | src/app/editor/page.tsx:323-341 | language (not gated), code, input and output are overwritten and the run is over |
| Session.RemoteExecutionStatus | src/app/editor/page.tsx:352-354 | the running flag takes the received value |
| Session.RunCode | src/app/editor/page.tsx:184-236 | a run with a result shows the never-empty selected text, broadcasts it and ends; a reply without `run` shows the message or `Execution failed.` and stays running; a throw shows and broadcasts the prefixed error and ends |
| Session.MissingRunKeepsRunDisabled | src/app/editor/page.tsx:205-208 | after a reply without `run` the Run button stays disabled under every local action |
| Session.LocalEditsReplicate | src/app/editor/page.tsx:260-311 | a local edit, delivered, gives the other participant the same code, input, or language and code |
| Session.RunReplicates | src/app/editor/page.tsx:210-235 | the messages of a successful run leave the other participant with the same language, code, input and output, and not running |
| Session.LastWriteWins | src/app/editor/page.tsx:295-297 | after any message sequence ending in `code-changed`, the code is that message's code |
| Call.Init | src/components/video-call.tsx:25-32 | all call flags down, mic and camera on, no remote user, empty status |
| Call.RemoteUserFor | src/components/video-call.tsx:226-232 | the remote user has the sender's id; a missing or empty name becomes `Remote User`, a missing or empty colour `bg-blue-500` |
| Call.StartLocalStream | src/components/video-call.tsx:92-128 | success replaces the stream without stopping the old one and makes it the peer's only senders; failure resets flags and remote user, shows the media error, keeps stream and connection |
| Call.RequestCall | src/components/video-call.tsx:130-138 | requesting is set, Start Call disappears, one `call-request` is sent, and nothing else changes |
| Call.AcceptCall | src/components/video-call.tsx:140-155 | the prompt goes away, one `call-accept` is sent, the stream is acquired (an earlier one dropped unstopped) and no connection created, a leftover one only getting the new senders; nothing else changes; a media failure ends in the idle state with the error |
| Call.RejectCall | src/components/video-call.tsx:157-165 | the prompt goes away, one `call-reject` is sent, nothing else changes |
| Call.EndCall | src/components/video-call.tsx:167-197 | flags and remote user reset, every local track stopped and the stream dropped, the connection closed and dropped, the remote stream cleared, one `call-end` sent |
| Call.FirstOfKind | src/components/video-call.tsx:201 | the index of the first track of the kind, or none when there is no such track |
| Call.ToggleMic | src/components/video-call.tsx:199-207 | flips the first audio track, leaving the other tracks alone, and mirrors it into `isMicOn`; nothing else changes; no stream or no audio track changes nothing |
| Call.ToggleVideo | src/components/video-call.tsx:209-217 | the same for the first video track and `isVideoOn`, with the same frame |
| Call.ToggleTwiceRestoresStream | src/components/video-call.tsx:199-217 | toggling twice gives back the same stream |
| Call.OnCallRequest | src/components/video-call.tsx:223-233 | an incoming request raises the prompt and names the caller; nothing else changes |
| Call.OnCallAccepted | src/components/video-call.tsx:235-272 | with media: the status "Call accepted. Establishing media...", the caller named, an earlier stream dropped unstopped and an earlier connection dropped unclosed, exactly one new connection sending every track with the offer as local description, exactly one `call-offer`, and nothing else changes; without media: idle with the error, no connection |
| Call.OnCallReject | src/components/video-call.tsx:274-277 | the request is withdrawn; only the requesting flag and status change |
| Call.OnCallEnd | src/components/video-call.tsx:279-291 | flags and remote user reset and the remote stream cleared, but the stream and connection are kept |
| Call.OnCallOffer | src/components/video-call.tsx:293-325 | with media: a new connection with the offer applied and the answer set, exactly one `call-answer`, an earlier connection dropped unclosed, flags, status and remote user unchanged; without media: no connection and no answer |
| Call.OnCallAnswer | src/components/video-call.tsx:327-340 | the answer is applied only when a connection exists |
| Call.OnIceCandidate | src/components/video-call.tsx:342-353 | a remote candidate is added only when a connection exists |
| Call.NewPeer | src/components/video-call.tsx:40-48 | a new connection uses the two STUN servers and sends the stream's tracks |
| Call.OnLocalCandidate | src/components/video-call.tsx:50-58 | each found candidate is sent once; the end-of-candidates event sends nothing |
| Call.OnTrack | src/components/video-call.tsx:60-68 | the remote stream is kept; the call becomes active only when the remote video element is mounted |
| Call.OnIceState | src/components/video-call.tsx:70-86 | connected activates; disconnected/failed reset the flags but keep media and connection; other states change nothing |
| Call.Unmount | src/components/video-call.tsx:382-391 | the local tracks are stopped and the connection closed, in place |
| Call.TeardownAsymmetry | src/components/video-call.tsx:167-197 | ending locally leaves no live track and no connection; remote end and ICE failure reach the same idle flags but keep tracks live and the connection |
| Call.CallerFlow | src/components/video-call.tsx:235-272 | request then remote accept with media gives one connection sending every track and exactly `call-request`, `call-offer` |
| Call.CallerHandshake | src/components/video-call.tsx:327-353 | the answer and remote candidates land on the connection the caller offered from |
| Call.SignalsWithoutPeerDropped | src/components/video-call.tsx:327-353 | without a connection, answers and candidates are dropped, including after a local end |
| Call.CalleeAcceptLeaksFirstStream | src/components/video-call.tsx:92-128 | the stream acquired on accept is replaced on offer without being stopped; ending the call stops only the second, so the first stays live |
| Call.RemoteEndThenOfferLeaksPeer | src/components/video-call.tsx:279-306 | after a remote end the connection stays open; the next offer replaces it without closing it, so it is dropped while still open |
| Call.IceConnectedIdempotent | src/components/video-call.tsx:72-74 | reaching connected twice equals reaching it once |
| JoinHook.Start | src/hooks/joinroom.ts:16-22 | the room id is stored before anything is sent; only a `check-room` can be sent; no timer yet |
| JoinHook.SettlesOnce | src/hooks/joinroom.ts:21-58 | once settled, no response and no timer changes the promise |
| JoinHook.NotExistsRejects | src/hooks/joinroom.ts:52-56 | a missing room rejects with `Room does not exist`, shows one toast, and sends no `join-room` |
| JoinHook.ExistsJoins | src/hooks/joinroom.ts:25-49 | once the room is found, arms the 5 s timer and sends one `join-room` with `isCreating` false |
| JoinHook.SuccessBeforeTimeout | src/hooks/joinroom.ts:36-41 | a success before the deadline clears the timer, navigates to `/editor`, resolves, and no later tick changes anything |
| JoinHook.ErrorRejectsWithMessage | src/hooks/joinroom.ts:42-47 | a refused join clears the timer, toasts and rejects with the relay's message |
| JoinHook.LateSuccessAfterTimeout | src/hooks/joinroom.ts:28-41 | after the timeout rejection a late success still navigates but the promise stays rejected |
| JoinForm.Submit | src/components/join-room-form.tsx:19-42 | a blank id only shows the error; a disconnected relay shows the connecting error and sends nothing; otherwise `check-room` is sent with the id exactly as typed |
| JoinForm.NotExistsEndsAttempt | src/components/join-room-form.tsx:72-77 | a missing room ends the attempt with its error and no `join-room` |
| JoinForm.SuccessStoresAndNavigates | src/components/join-room-form.tsx:53-62 | `check-room` then `join-room` are sent with the typed id; success stores that id, navigates to `/editor`, and the timer never fires |
| JoinForm.ErrorShowsMessage | src/components/join-room-form.tsx:63-68 | a refused join ends the attempt with the relay's message and clears the timer |
| JoinForm.TimeoutThenLateSuccess | src/components/join-room-form.tsx:48-62 | the timeout ends the attempt with its error; a later success still stores and navigates and leaves that error shown |
| JoinForm.ResubmitKeepsJoinedId | src/components/join-room-form.tsx:44-69 | Enter with another id while a join is in flight sends a new `check-room`, but a `room-joined` then stores the id that was joined, not the one now typed |
| NavbarJoin.Submit | src/components/navbar.tsx:30-61 | a blank id only shows the error; otherwise the error is cleared, one more timer started next to any still pending, and `join-room` sent directly, with no existence check |
| NavbarJoin.OpenChange | src/components/navbar.tsx:86-92 | opening the dialog clears the error and the busy flag and leaves every pending timer running |
| NavbarJoin.Outcomes | src/components/navbar.tsx:45-61 | success ends the attempt and navigates to `/editor`; failure ends it with the relay's message; both clear that attempt's own timer |
| NavbarJoin.TimesOut | src/components/navbar.tsx:40-43 | no answer by the deadline ends the attempt with the timeout error and the timer is gone |
| NavbarJoin.ReopenDoesNotCancelTimer | src/components/navbar.tsx:40-92 | reopening the dialog mid-attempt clears the form, but the old timer later puts the timeout error back |
| NavbarJoin.DoubleSubmitLateTimeout | src/components/navbar.tsx:39-61 | Enter pressed twice: the second attempt succeeds and navigates, yet the first attempt's uncleared timer still shows the timeout error at its deadline |
| CreateForm.RoomPath | src/components/create-room-form.tsx:36 | a room's page lies under `/editor` and is never `/editor` itself |
| CreateForm.Create | src/components/create-room-form.tsx:17-45 | busy, the new id stored, one more timer started next to any still pending, and one `join-room` sent with `isCreating` true |
| CreateForm.Unmount | src/components/create-room-form.tsx:59-61 | unmounting empties the shared connection slot |
| CreateForm.SuccessOpensRoomPage | src/components/create-room-form.tsx:33-37 | success navigates to `/editor/<roomId>`, not `/editor` |
| CreateForm.FailureOnlyEndsBusy | src/components/create-room-form.tsx:38-43 | a refused create only ends the busy state and clears that attempt's own timer |
| CreateForm.TimeoutOnlyEndsBusy | src/components/create-room-form.tsx:25-28 | the timeout only ends the busy state and removes the fired timer |
| CreateForm.RepeatClickEndsBusyEarly | src/components/create-room-form.tsx:17-45 | a second click: the first attempt's uncleared timer ends the busy state while the second is in flight, and the second's success still opens its own room |
| CreateForm.UnmountThenNewConnection | src/components/create-room-form.tsx:59-61 | after unmounting, the next use of the relay opens a new connection |
| CreateHook.Begin | src/hooks/createroom.ts:16-26 | the id is stored and the timer started before the database call; nothing is sent |
| CreateHook.DbReturned | src/hooks/createroom.ts:26-51 | a room leads to one `join-room` with `isCreating` true; no room or an exception leads to the matching error toast with nothing sent and the timer left running |
| CreateHook.DbFailureStillTimesOut | src/hooks/createroom.ts:22-30 | after a database failure the uncleared timer still fires: the user sees the database error, then the timeout error |
| CreateHook.CreatedAndJoined | src/hooks/createroom.ts:32-40 | a join before the deadline gives one success toast naming the room and navigates to `/editor`; the timer never fires |
| CreateHook.CreatedButRefused | src/hooks/createroom.ts:41-45 | a refused join clears the timer and shows the relay's message |

## Left out

- The socket.io transport, reconnection and backoff. The connection options are kept
  only as constants (`Relay.DefaultOptions`).
- The relay server is not in the source. Session.Receive and Cursors.Deliver assume how
  it forwards messages, inferred from the event names the page sends and listens on:
  `change-language` arrives as `language-changed`, `run-code` as `code-run`, and cursor
  messages arrive tagged with the sender's connection id. Session.LocalEditsReplicate,
  Session.RunReplicates and Cursors.EmittedCursorsArrive hold under that assumption.
- The connect, disconnect and connect-error listeners that the join and create forms
  register on mount. They only log.
- The HTTP `checkRoomStatus` (src/lib/socket-client.ts:147-161). It is network I/O
  whose result nothing in the modelled flows uses.
- The real sandbox request (the `fetch` calls). Its outcome is a parameter:
  `Execution.Outcome` and `Session.RunResponse`.
- WebRTC and media internals: `RTCPeerConnection`, SDP generation, `getUserMedia` and
  `srcObject`. Media acquisition is a parameter (`Some(stream)` or `None` when it
  throws). So are new connection ids, offers and answers. The `video`/`audio`
  constraints, which depend on the toggles, only shape that parameter.
- Async interleaving inside a handler. Every handler runs to completion. The one await
  that matters for the flows (the database call of `createRoomLogic`) is split into
  `CreateHook.Begin` and `CreateHook.DbReturned`, so a tick can come between them.
- Peer-connection callbacks: a callback of an already dropped connection acts on the
  component state like one of the current connection. The model does not tag
  callbacks by connection.
- The registration and removal of the long-lived socket subscriptions: the cursor,
  call and editor events. Their handlers are modelled as functions. Their `on`/`off`
  bookkeeping is not.
- The 50 ms render debounce, the hover tooltip, the resizable layout and all markup.
  The render guard is kept (`Cursors.Renders`).
- Prisma and Clerk. The database result is a parameter (`CreateHook.DbResult`).
- `Math.random`. Room ids and user ids are parameters.
- `src/lib/constants.ts` beyond its key set. The snippets are a parameter table whose
  keys are the eight supported languages.
- `src/hooks/store.ts` and the participant list of the editor page. The store's room id
  is a field of each flow. The participants and the current user are inputs to
  `Call`.
- JoinHook.Callback and JoinForm.Callback: a repeated `room-exists` response arms a
  second timer and never clears the first. The model keeps only the latest timer.
- Cursors.Hash: a Dafny `char` is treated as one UTF-16 code unit. A character outside
  the Basic Multilingual Plane, which JavaScript splits into two code units, hashes
  differently.
- The `catch` blocks around synchronous relay calls are not modelled: joinroom.ts
  lines 59-63, join-room-form.tsx lines 79-83 and create-room-form.tsx lines 46-49.
  Nothing inside those blocks throws once the relay is modelled. The database
  exception of `createRoomLogic` is modelled.

=== FILE: attempt.dfy ===
/** What the join and create flows share: the relay responses they wait for, the
    callback tokens they register, the user-visible messages and the navigation
    target. */
module Attempt {
  import opened Base
  import Relay

  /** A response from the relay to a `check-room` or `join-room` message. */
  datatype Response = Joined | NotAvailable(message: string) | Exists | NotExists

  /** The relay event a response arrives as. */
  function TopicOf(r: Response): (t: Relay.Topic)
    ensures t != Relay.Connected
    ensures r.Joined? <==> t == Relay.RoomJoined
    ensures r.NotAvailable? <==> t == Relay.RoomNotAvailable
    ensures r.Exists? <==> t == Relay.RoomExists
    ensures r.NotExists? <==> t == Relay.RoomNotExists
  {
    match r
    case Joined => Relay.RoomJoined
    case NotAvailable(_) => Relay.RoomNotAvailable
    case Exists => Relay.RoomExists
    case NotExists => Relay.RoomNotExists
  }

  /** The error text a response carries (only `room-not-available` carries one). */
  function Message(r: Response): string {
    if r.NotAvailable? then r.message else ""
  }

  /** The callbacks a flow registers, named by token: the two `checkRoomExists`
      callbacks and the two `joinRoom` callbacks. */
  const ExistsToken: nat := 0
  const NotExistsToken: nat := 1
  const SuccessToken: nat := 2
  const ErrorToken: nat := 3

  /** The callbacks the relay client invokes for a response. */
  function Fired(c: Relay.Client, r: Response): seq<nat> {
    Relay.Respond(c, TopicOf(r))
  }

  /** A transient notification. */
  datatype Toast = ErrorToast(text: string) | SuccessToast(text: string)

  const EditorPath: string := "/editor"
  const BlankIdError: string := "Please enter a room ID"
  const TimeoutError: string := "Connection timeout. Please try again."
  const NotExistsError: string := "Room does not exist. Please check the room ID."

  /** After `joinRoom`, a `room-joined` response invokes exactly the success callback
      and a `room-not-available` response exactly the error callback. */
  lemma AfterJoin(c: Relay.Client, roomId: string, userId: string, isCreating: bool, msg: string)
    ensures Fired(Relay.JoinRoom(c, roomId, userId, SuccessToken, ErrorToken, isCreating), Joined) == [SuccessToken]
    ensures Fired(Relay.JoinRoom(c, roomId, userId, SuccessToken, ErrorToken, isCreating), NotAvailable(msg)) == [ErrorToken]
  {
    Relay.JoinRoomSingleShot(c, roomId, userId, SuccessToken, ErrorToken, isCreating);
  }

  /** After `checkRoomExists`, the room responses invoke exactly the matching callback. */
  lemma AfterCheck(c: Relay.Client, roomId: string)
    ensures Fired(Relay.CheckRoomExists(c, roomId, ExistsToken, NotExistsToken), Exists) == [ExistsToken]
    ensures Fired(Relay.CheckRoomExists(c, roomId, ExistsToken, NotExistsToken), NotExists) == [NotExistsToken]
  {
    Relay.CheckRoomSingleShot(c, roomId, ExistsToken, NotExistsToken);
  }
}

=== FILE: base.dfy ===
/** Small building blocks shared by every part of the model: optional values,
    JavaScript truthiness of optional strings, `String.prototype.trim` blankness,
    the signed 32-bit wrap of the bitwise operators, and the 5-second response timer. */
module Base {

  /** A value that may be absent (`undefined`/`null` in the source). */
  datatype Option<+T> = None | Some(value: T) {
    function GetOr(default: T): T {
      match this
      case Some(v) => v
      case None => default
    }
  }

  // ---------------------------------------------------------------------------
  // JavaScript truthiness and the `||` chain on optional strings
  // ---------------------------------------------------------------------------

  /** An optional string is truthy when it is present and not the empty string. */
  predicate Truthy(o: Option<string>) {
    o.Some? && o.value != ""
  }

  /** `a || b` on optional strings: the left operand when it is truthy, else the right one. */
  function Or(a: Option<string>, b: Option<string>): (r: Option<string>)
    ensures Truthy(a) ==> r == a
    ensures !Truthy(a) ==> r == b
  {
    if Truthy(a) then a else b
  }

  /** The value of `xs[0] || xs[1] || ... || fallback`, evaluated left to right. */
  function Coalesce(xs: seq<Option<string>>, fallback: string): string {
    if |xs| == 0 then fallback
    else if Truthy(xs[0]) then xs[0].value
    else Coalesce(xs[1..], fallback)
  }

  /** The `||` chain yields the first truthy operand, and the fallback only when none is truthy. */
  lemma {:induction false} CoalesceIsFirstTruthy(xs: seq<Option<string>>, fallback: string)
    ensures (forall i :: 0 <= i < |xs| ==> !Truthy(xs[i])) ==> Coalesce(xs, fallback) == fallback
    ensures forall k :: 0 <= k < |xs| && Truthy(xs[k]) && (forall i :: 0 <= i < k ==> !Truthy(xs[i]))
                        ==> Coalesce(xs, fallback) == xs[k].value
    decreases |xs|
  {
    if |xs| > 0 {
      CoalesceIsFirstTruthy(xs[1..], fallback);
      forall k | 0 <= k < |xs| && Truthy(xs[k]) && (forall i :: 0 <= i < k ==> !Truthy(xs[i]))
        ensures Coalesce(xs, fallback) == xs[k].value
      {
        if k > 0 {
          assert !Truthy(xs[0]);
          assert xs[1..][k - 1] == xs[k];
          assert forall i :: 0 <= i < k - 1 ==> xs[1..][i] == xs[i + 1];
        }
      }
    }
  }

  /** A non-empty fallback makes the whole chain non-empty. */
  lemma {:induction false} CoalesceNonEmpty(xs: seq<Option<string>>, fallback: string)
    requires fallback != ""
    ensures Coalesce(xs, fallback) != ""
    decreases |xs|
  {
    if |xs| > 0 && !Truthy(xs[0]) {
      CoalesceNonEmpty(xs[1..], fallback);
    }
  }

  // ---------------------------------------------------------------------------
  // `String.prototype.trim`
  // ---------------------------------------------------------------------------

  /** ECMAScript WhiteSpace and LineTerminator code points, the set `trim` strips. */
  predicate IsJsSpace(c: char) {
    var n := c as int;
    n == 0x09 || n == 0x0A || n == 0x0B || n == 0x0C || n == 0x0D || n == 0x20 ||
    n == 0xA0 || n == 0x1680 || (0x2000 <= n <= 0x200A) || n == 0x2028 || n == 0x2029 ||
    n == 0x202F || n == 0x205F || n == 0x3000 || n == 0xFEFF
  }

  /** Every character is white space (so `!s.trim()` holds). */
  predicate Blank(s: string) {
    forall i :: 0 <= i < |s| ==> IsJsSpace(s[i])
  }

  /** Removes leading white space. */
  function TrimStart(s: string): (r: string)
    ensures |r| > 0 ==> !IsJsSpace(r[0])
  {
    if |s| > 0 && IsJsSpace(s[0]) then TrimStart(s[1..]) else s
  }

  /** Removes trailing white space. */
  function TrimEnd(s: string): string {
    if |s| > 0 && IsJsSpace(s[|s| - 1]) then TrimEnd(s[..|s| - 1]) else s
  }

  /** `s.trim()`: leading and trailing white space removed. */
  function Trim(s: string): string {
    TrimEnd(TrimStart(s))
  }

  lemma {:induction false} TrimStartEmptyIffBlank(s: string)
    ensures TrimStart(s) == "" <==> Blank(s)
    decreases |s|
  {
    if |s| > 0 && IsJsSpace(s[0]) {
      TrimStartEmptyIffBlank(s[1..]);
      assert Blank(s) <==> Blank(s[1..]) by {
        assert forall i :: 0 < i < |s| ==> s[i] == s[1..][i - 1];
      }
    }
  }

  lemma {:induction false} TrimEndEmptyIffBlank(s: string)
    ensures TrimEnd(s) == "" <==> Blank(s)
    decreases |s|
  {
    if |s| > 0 && IsJsSpace(s[|s| - 1]) {
      TrimEndEmptyIffBlank(s[..|s| - 1]);
      assert Blank(s) <==> Blank(s[..|s| - 1]) by {
        assert forall i :: 0 <= i < |s| - 1 ==> s[i] == s[..|s| - 1][i];
      }
    }
  }

  /** `!s.trim()` holds exactly when the string is empty or all white space. */
  lemma TrimEmptyIffBlank(s: string)
    ensures Trim(s) == "" <==> Blank(s)
  {
    var t := TrimStart(s);
    TrimStartEmptyIffBlank(s);
    TrimEndEmptyIffBlank(t);
    if t != "" {
      assert !Blank(t);
    }
  }

  // ---------------------------------------------------------------------------
  // Signed 32-bit wrap (ECMAScript ToInt32)
  // ---------------------------------------------------------------------------

  const TwoTo32: int := 0x1_0000_0000
  const TwoTo31: int := 0x8000_0000

  predicate IsInt32(x: int) {
    -TwoTo31 <= x < TwoTo31
  }

  /** ToInt32: the unique signed 32-bit value congruent to `x` modulo 2^32. */
  function ToInt32(x: int): (r: int)
    ensures IsInt32(r)
    ensures (x - r) % TwoTo32 == 0
  {
    var m := x % TwoTo32;
    if m >= TwoTo31 then m - TwoTo32 else m
  }

  /** ToInt32 only depends on the residue modulo 2^32. */
  lemma ToInt32Congruent(x: int, y: int)
    requires (x - y) % TwoTo32 == 0
    ensures ToInt32(x) == ToInt32(y)
  {
    var k := (x - y) / TwoTo32;
    assert x == y + k * TwoTo32;
    assert x % TwoTo32 == y % TwoTo32;
  }

  /** Congruent operands stay congruent through `31 * x + c`. */
  lemma ToInt32Affine(x: int, y: int, c: int)
    requires (x - y) % TwoTo32 == 0
    ensures ToInt32(31 * x + c) == ToInt32(31 * y + c)
  {
    var k := (x - y) / TwoTo32;
    assert x - y == k * TwoTo32;
    assert (31 * x + c) - (31 * y + c) == 31 * (x - y);
    assert 31 * (x - y) == (31 * k) * TwoTo32;
    assert ((31 * x + c) - (31 * y + c)) % TwoTo32 == 0;
    ToInt32Congruent(31 * x + c, 31 * y + c);
  }

  // ---------------------------------------------------------------------------
  // The 5-second response timer (`setTimeout` / `clearTimeout`)
  // ---------------------------------------------------------------------------

  /** Milliseconds every join/create flow waits for the relay before giving up. */
  const ResponseTimeoutMs: int := 5000

  /** A single pending `setTimeout`: either none is pending or one fires at `deadline`. */
  datatype Timer = NoTimer | Armed(deadline: int)

  function Arm(now: int): (t: Timer)
    ensures t.Armed? && t.deadline - now == ResponseTimeoutMs
  {
    Armed(now + ResponseTimeoutMs)
  }

  /** The pending timer's callback is due at time `now`. */
  predicate Due(t: Timer, now: int) {
    t.Armed? && now >= t.deadline
  }

  // ---------------------------------------------------------------------------
  // Several timers of one component, pending at once (oldest first)
  // ---------------------------------------------------------------------------

  /** `clearTimeout` on the latest timer: the callbacks that can still fire are the
      latest attempt's, and only they hold a handle. */
  function ClearLatest(ts: seq<Timer>): (r: seq<Timer>)
    ensures |r| == |ts|
    ensures |ts| > 0 ==> r[..|ts| - 1] == ts[..|ts| - 1] && r[|ts| - 1] == NoTimer
    ensures |ts| == 0 ==> r == ts
  {
    if |ts| == 0 then ts else ts[..|ts| - 1] + [NoTimer]
  }

  /** Some pending timer is due at time `now`. */
  predicate AnyDue(ts: seq<Timer>, now: int) {
    exists i :: 0 <= i < |ts| && Due(ts[i], now)
  }

  /** Time reaches `now`: every due timer fires and is gone; the others keep running. */
  function FireDue(ts: seq<Timer>, now: int): (r: seq<Timer>)
    ensures |r| == |ts|
    ensures forall i :: 0 <= i < |ts| ==> Due(ts[i], now) ==> r[i] == NoTimer
    ensures forall i :: 0 <= i < |ts| ==> !Due(ts[i], now) ==> r[i] == ts[i]
    ensures !AnyDue(r, now)
    decreases |ts|
  {
    if |ts| == 0 then []
    else [if Due(ts[0], now) then NoTimer else ts[0]] + FireDue(ts[1..], now)
  }

  /** Firing is idempotent, and a timer armed after the others is untouched until its
      own deadline, whatever became of the earlier ones. */
  lemma {:induction false} FireDueLatest(ts: seq<Timer>, t0: int, now: int)
    requires now < t0 + ResponseTimeoutMs
    ensures FireDue(FireDue(ts, now), now) == FireDue(ts, now)
    ensures FireDue(ts + [Arm(t0)], now) == FireDue(ts, now) + [Arm(t0)]
    decreases |ts|
  {
    if |ts| > 0 {
      FireDueLatest(ts[1..], t0, now);
      assert (ts + [Arm(t0)])[1..] == ts[1..] + [Arm(t0)];
    }
  }
}

=== FILE: call.dfy ===
/** The call signalling of `src/components/video-call.tsx`: the four call flags, the
    remote user and status line, and the media resources behind them (the local
    stream with its tracks, the peer connection), driven by local buttons, relay
    messages and peer-connection callbacks. Media and peer connections are opaque
    records; each handler runs to completion (its awaits are not interleaved). */
module Call {
  import opened Base
  import Relay

  // ---------------------------------------------------------------------------
  // Media resources
  // ---------------------------------------------------------------------------

  datatype TrackKind = Audio | Video

  /** A media track: `live` until stopped; `enabled` is the mute switch. */
  datatype Track = Track(id: nat, kind: TrackKind, live: bool, enabled: bool)

  datatype Stream = Stream(id: nat, tracks: seq<Track>)

  /** The STUN servers every peer connection is configured with. */
  const IceServers: seq<string> := ["stun:stun.l.google.com:19302", "stun:stun1.l.google.com:19302"]

  /** A peer connection: the tracks it sends, its session descriptions, the remote
      ICE candidates applied to it, and whether it was closed. */
  datatype Peer = Peer(
    id: nat,
    iceServers: seq<string>,
    senders: seq<nat>,
    localDescription: Option<Relay.Sdp>,
    remoteDescription: Option<Relay.Sdp>,
    candidates: seq<Relay.Candidate>,
    closed: bool)

  datatype IceState = IceNew | IceChecking | IceConnected | IceCompleted | IceDisconnected | IceFailed | IceClosed

  /** A participant as the shared store lists it, and the remote user shown in the call. */
  datatype User = User(id: string, name: string, color: string)

  const DefaultRemoteName: string := "Remote User"
  const DefaultRemoteColor: string := "bg-blue-500"
  const MediaError: string := "Error accessing camera/microphone"

  function TrackIds(ts: seq<Track>): (r: seq<nat>)
    ensures |r| == |ts| && forall i :: 0 <= i < |ts| ==> r[i] == ts[i].id
  {
    seq(|ts|, i requires 0 <= i < |ts| => ts[i].id)
  }

  /** The number of tracks still live. */
  function LiveCount(ts: seq<Track>): nat {
    if |ts| == 0 then 0 else (if ts[0].live then 1 else 0) + LiveCount(ts[1..])
  }

  lemma {:induction false} LiveCountAppend(a: seq<Track>, b: seq<Track>)
    ensures LiveCount(a + b) == LiveCount(a) + LiveCount(b)
    decreases |a|
  {
    if |a| > 0 {
      assert (a + b)[0] == a[0];
      assert (a + b)[1..] == a[1..] + b;
      LiveCountAppend(a[1..], b);
    } else {
      assert a + b == b;
    }
  }

  /** `track.stop()` on every track: same tracks, none live. */
  function StopAll(ts: seq<Track>): (r: seq<Track>)
    ensures |r| == |ts|
    ensures forall i :: 0 <= i < |ts| ==> r[i] == ts[i].(live := false)
    ensures LiveCount(r) == 0
  {
    if |ts| == 0 then [] else [ts[0].(live := false)] + StopAll(ts[1..])
  }

  /** The index of the first track of a kind (`getAudioTracks()[0]`, `getVideoTracks()[0]`). */
  function FirstOfKind(ts: seq<Track>, k: TrackKind): (r: Option<nat>)
    ensures r.Some? ==> r.value < |ts| && ts[r.value].kind == k
                        && forall j :: 0 <= j < r.value ==> ts[j].kind != k
    ensures r.None? ==> forall j :: 0 <= j < |ts| ==> ts[j].kind != k
  {
    if |ts| == 0 then None
    else if ts[0].kind == k then Some(0)
    else match FirstOfKind(ts[1..], k)
      case None => None
      case Some(i) => Some(i + 1)
  }

  // ---------------------------------------------------------------------------
  // Call state
  // ---------------------------------------------------------------------------

  /** The component's state. Streams and peer connections dropped from the references
      are kept, as they were left, in `retiredStreams` / `retiredPeers`, so that what
      teardown does (or does not do) to them stays visible. */
  datatype Call = Call(
    isInCall: bool,
    isCallActive: bool,
    isCallRequested: bool,
    isCallRequesting: bool,
    isMicOn: bool,
    isVideoOn: bool,
    remoteUser: Option<User>,
    status: string,
    local: Option<Stream>,
    pc: Option<Peer>,
    remoteStream: Option<nat>,
    retiredStreams: seq<Stream>,
    retiredPeers: seq<Peer>,
    sent: seq<Relay.Msg>,
    roomId: string,
    me: string)

  function Init(roomId: string, me: string): (c: Call)
    ensures !c.isInCall && !c.isCallActive && !c.isCallRequested && !c.isCallRequesting
    ensures c.isMicOn && c.isVideoOn && c.remoteUser.None? && c.status == ""
    ensures c.local.None? && c.pc.None? && c.sent == []
  {
    Call(false, false, false, false, true, true, None, "", None, None, None, [], [], [], roomId, me)
  }

  /** All four call flags are down and no remote user is shown. */
  predicate Idle(c: Call) {
    !c.isInCall && !c.isCallActive && !c.isCallRequested && !c.isCallRequesting && c.remoteUser.None?
  }

  /** The Start Call button is shown. */
  predicate CanStartCall(c: Call) {
    !c.isInCall && !c.isCallRequested && !c.isCallRequesting
  }

  /** The reset that several paths share: flags down, remote user cleared. */
  function Reset(c: Call): (r: Call)
    ensures Idle(r)
    ensures r.local == c.local && r.pc == c.pc && r.sent == c.sent && r.status == c.status
    ensures r.retiredStreams == c.retiredStreams && r.retiredPeers == c.retiredPeers
  {
    c.(isInCall := false, isCallActive := false, isCallRequested := false,
       isCallRequesting := false, remoteUser := None)
  }

  /** The remote user for `fromUserId`: the first matching participant's name and colour,
      each replaced by a default when empty, or both defaults when nobody matches. */
  function RemoteUserFor(participants: seq<User>, fromUserId: string): (u: User)
    ensures u.id == fromUserId && u.name != "" && u.color != ""
    ensures (forall p :: p in participants ==> p.id != fromUserId) ==>
            u.name == DefaultRemoteName && u.color == DefaultRemoteColor
    ensures forall k :: 0 <= k < |participants| && participants[k].id == fromUserId
                        && (forall j :: 0 <= j < k ==> participants[j].id != fromUserId) ==>
            && u.name == (if participants[k].name != "" then participants[k].name else DefaultRemoteName)
            && u.color == (if participants[k].color != "" then participants[k].color else DefaultRemoteColor)
    decreases |participants|
  {
    if |participants| == 0 then User(fromUserId, DefaultRemoteName, DefaultRemoteColor)
    else if participants[0].id == fromUserId then
      var p := participants[0];
      User(fromUserId, Or(Some(p.name), Some(DefaultRemoteName)).value,
                       Or(Some(p.color), Some(DefaultRemoteColor)).value)
    else RemoteUserFor(participants[1..], fromUserId)
  }

  /** `startLocalStream` with the outcome of the media request (None: it threw).
      On success the stream replaces the reference (the old one is not stopped) and,
      when a peer connection exists, becomes its only set of senders. On failure the
      call is reset and the error shown; the references are left alone. */
  function StartLocalStream(c: Call, acquired: Option<Stream>): (r: (Call, Option<Stream>))
    ensures r.1 == acquired && r.0.sent == c.sent && r.0.retiredPeers == c.retiredPeers
    ensures r.0.pc.Some? == c.pc.Some?
    ensures acquired.Some? ==>
      && r.0.local == acquired
      && (c.pc.Some? ==> r.0.pc == Some(c.pc.value.(senders := TrackIds(acquired.value.tracks))))
      && r.0.retiredStreams == c.retiredStreams + (if c.local.Some? then [c.local.value] else [])
      && r.0.isInCall == c.isInCall && r.0.isCallRequested == c.isCallRequested
      && r.0.isCallRequesting == c.isCallRequesting && r.0.remoteUser == c.remoteUser
      && r.0.status == c.status && r.0.isCallActive == c.isCallActive
    ensures acquired.None? ==>
      && r.0 == Reset(c).(status := MediaError)
  {
    match acquired
    case Some(s) =>
      var retired := c.retiredStreams + (if c.local.Some? then [c.local.value] else []);
      var pc := if c.pc.Some? then Some(c.pc.value.(senders := TrackIds(s.tracks))) else None;
      (c.(local := Some(s), pc := pc, retiredStreams := retired), Some(s))
    case None =>
      (Reset(c).(status := MediaError), None)
  }

  /** A new peer connection sending every track of `s`. */
  function NewPeer(id: nat, s: Stream): (p: Peer)
    ensures p.senders == TrackIds(s.tracks) && !p.closed && p.iceServers == IceServers
    ensures p.candidates == [] && p.localDescription.None? && p.remoteDescription.None?
  {
    Peer(id, IceServers, TrackIds(s.tracks), None, None, [], false)
  }

  /** `peerConnectionRef.current = pc`: any previous connection is dropped unclosed. */
  function Install(c: Call, p: Peer): (r: Call)
    ensures r.pc == Some(p)
    ensures r.retiredPeers == c.retiredPeers + (if c.pc.Some? then [c.pc.value] else [])
    ensures r == c.(pc := r.pc, retiredPeers := r.retiredPeers)
  {
    c.(pc := Some(p), retiredPeers := c.retiredPeers + (if c.pc.Some? then [c.pc.value] else []))
  }

  // ---------------------------------------------------------------------------
  // Local actions
  // ---------------------------------------------------------------------------

  /** Start Call: mark the request and send `call-request`; no media, no connection. */
  function RequestCall(c: Call): (r: Call)
    ensures r.isCallRequesting && !CanStartCall(r)
    ensures r.status == "Requesting call..."
    ensures r.sent == c.sent + [Relay.CallRequest(c.roomId, c.me)]
    ensures r.(isCallRequesting := c.isCallRequesting, status := c.status, sent := c.sent) == c
  {
    c.(isCallRequesting := true, status := "Requesting call...",
       sent := c.sent + [Relay.CallRequest(c.roomId, c.me)])
  }

  /** Accept: the call is on from the UI's view, `call-accept` is sent, and the local
      stream is acquired at once, replacing an earlier one without stopping it; no peer
      connection is created (one left from an earlier call only gets new senders). */
  function AcceptCall(c: Call, acquired: Option<Stream>): (r: Call)
    ensures r.sent == c.sent + [Relay.CallAccept(c.roomId, c.me)]
    ensures !r.isCallRequested
    ensures r.pc.Some? == c.pc.Some?
    ensures acquired.Some? ==>
      && r.isInCall && r.local == acquired
      && r.status == "Call accepted. Waiting for remote media..."
      && r.pc == (if c.pc.Some? then Some(c.pc.value.(senders := TrackIds(acquired.value.tracks))) else None)
      && r.retiredStreams == c.retiredStreams + (if c.local.Some? then [c.local.value] else [])
      && r.(isCallRequested := c.isCallRequested, isInCall := c.isInCall, status := c.status,
            local := c.local, pc := c.pc, sent := c.sent, retiredStreams := c.retiredStreams) == c
    ensures acquired.None? ==> Idle(r) && r.status == MediaError && r.local == c.local && r.pc == c.pc
  {
    var accepted := c.(isCallRequested := false, isInCall := true,
                       status := "Call accepted. Waiting for remote media...",
                       sent := c.sent + [Relay.CallAccept(c.roomId, c.me)]);
    StartLocalStream(accepted, acquired).0
  }

  /** Reject: the prompt goes away and `call-reject` is sent. */
  function RejectCall(c: Call): (r: Call)
    ensures !r.isCallRequested && r.status == "Call rejected"
    ensures r.sent == c.sent + [Relay.CallReject(c.roomId, c.me)]
    ensures r.(isCallRequested := c.isCallRequested, status := c.status, sent := c.sent) == c
  {
    c.(isCallRequested := false, status := "Call rejected",
       sent := c.sent + [Relay.CallReject(c.roomId, c.me)])
  }

  /** End Call: full teardown. Every local track is stopped and the stream dropped, the
      peer connection is closed and dropped, the remote stream cleared, `call-end` sent. */
  function EndCall(c: Call): (r: Call)
    ensures Idle(r) && r.status == "Call ended"
    ensures r.local.None? && r.pc.None? && r.remoteStream.None?
    ensures r.sent == c.sent + [Relay.CallEnd(c.roomId, c.me)]
    ensures c.local.Some? ==>
      r.retiredStreams == c.retiredStreams + [c.local.value.(tracks := StopAll(c.local.value.tracks))]
    ensures c.local.None? ==> r.retiredStreams == c.retiredStreams
    ensures c.pc.Some? ==> r.retiredPeers == c.retiredPeers + [c.pc.value.(closed := true)]
    ensures c.pc.None? ==> r.retiredPeers == c.retiredPeers
  {
    var streams := if c.local.Some? then
                     c.retiredStreams + [c.local.value.(tracks := StopAll(c.local.value.tracks))]
                   else c.retiredStreams;
    var peers := if c.pc.Some? then c.retiredPeers + [c.pc.value.(closed := true)] else c.retiredPeers;
    Reset(c).(status := "Call ended", local := None, pc := None, remoteStream := None,
              retiredStreams := streams, retiredPeers := peers,
              sent := c.sent + [Relay.CallEnd(c.roomId, c.me)])
  }

  /** Flips the first track of kind `k`, if the stream has one. */
  function ToggleTrack(s: Stream, k: TrackKind): (r: Stream)
    ensures r.id == s.id && |r.tracks| == |s.tracks|
    ensures FirstOfKind(s.tracks, k).None? ==> r == s
    ensures FirstOfKind(s.tracks, k).Some? ==>
      var i := FirstOfKind(s.tracks, k).value;
      r.tracks == s.tracks[i := s.tracks[i].(enabled := !s.tracks[i].enabled)]
  {
    match FirstOfKind(s.tracks, k)
    case None => s
    case Some(i) => s.(tracks := s.tracks[i := s.tracks[i].(enabled := !s.tracks[i].enabled)])
  }

  /** Mute button: flips the first audio track and mirrors it into `isMicOn`; sends
      nothing; does nothing without a stream or an audio track. */
  function ToggleMic(c: Call): (r: Call)
    ensures r.sent == c.sent && r.pc == c.pc && r.isVideoOn == c.isVideoOn
    ensures c.local.None? || FirstOfKind(c.local.value.tracks, Audio).None? ==> r == c
    ensures c.local.Some? && FirstOfKind(c.local.value.tracks, Audio).Some? ==>
      var i := FirstOfKind(c.local.value.tracks, Audio).value;
      && r.local.Some? && |r.local.value.tracks| == |c.local.value.tracks|
      && r.local.value.tracks[i].enabled == !c.local.value.tracks[i].enabled
      && r.isMicOn == r.local.value.tracks[i].enabled
      && r.local.value.id == c.local.value.id
      && (forall j :: 0 <= j < |c.local.value.tracks| && j != i ==> r.local.value.tracks[j] == c.local.value.tracks[j])
    ensures r.(local := c.local, isMicOn := c.isMicOn) == c
  {
    match c.local
    case None => c
    case Some(s) =>
      match FirstOfKind(s.tracks, Audio)
      case None => c
      case Some(i) =>
        var s1 := ToggleTrack(s, Audio);
        c.(local := Some(s1), isMicOn := s1.tracks[i].enabled)
  }

  /** Camera button: the same for the first video track and `isVideoOn`. */
  function ToggleVideo(c: Call): (r: Call)
    ensures r.sent == c.sent && r.pc == c.pc && r.isMicOn == c.isMicOn
    ensures c.local.None? || FirstOfKind(c.local.value.tracks, Video).None? ==> r == c
    ensures c.local.Some? && FirstOfKind(c.local.value.tracks, Video).Some? ==>
      var i := FirstOfKind(c.local.value.tracks, Video).value;
      && r.local.Some? && |r.local.value.tracks| == |c.local.value.tracks|
      && r.local.value.tracks[i].enabled == !c.local.value.tracks[i].enabled
      && r.isVideoOn == r.local.value.tracks[i].enabled
      && r.local.value.id == c.local.value.id
      && (forall j :: 0 <= j < |c.local.value.tracks| && j != i ==> r.local.value.tracks[j] == c.local.value.tracks[j])
    ensures r.(local := c.local, isVideoOn := c.isVideoOn) == c
  {
    match c.local
    case None => c
    case Some(s) =>
      match FirstOfKind(s.tracks, Video)
      case None => c
      case Some(i) =>
        var s1 := ToggleTrack(s, Video);
        c.(local := Some(s1), isVideoOn := s1.tracks[i].enabled)
  }

  /** Flipping the same track twice gives back the stream. */
  lemma ToggleTrackTwice(s: Stream, k: TrackKind)
    ensures ToggleTrack(ToggleTrack(s, k), k) == s
  {
    var a := FirstOfKind(s.tracks, k);
    if a.Some? {
      var s1 := ToggleTrack(s, k);
      FirstOfKindSameKinds(s.tracks, s1.tracks, k);
      assert s1.tracks[a.value := s1.tracks[a.value].(enabled := !s1.tracks[a.value].enabled)] == s.tracks;
    }
  }

  /** What the mute and camera buttons do to the stream: flip its first track of the kind. */
  lemma ToggleLocal(c: Call)
    ensures ToggleMic(c).local == (if c.local.Some? then Some(ToggleTrack(c.local.value, Audio)) else None)
    ensures ToggleVideo(c).local == (if c.local.Some? then Some(ToggleTrack(c.local.value, Video)) else None)
  {
  }

  /** Muting twice, or turning the camera off and on, gives back the same stream. */
  lemma ToggleTwiceRestoresStream(c: Call)
    ensures ToggleMic(ToggleMic(c)).local == c.local
    ensures ToggleVideo(ToggleVideo(c)).local == c.local
  {
    if c.local.Some? {
      var s := c.local.value;
      var m := ToggleMic(c);
      ToggleLocal(c);
      ToggleLocal(m);
      ToggleTrackTwice(s, Audio);
      var v := ToggleVideo(c);
      ToggleLocal(v);
      ToggleTrackTwice(s, Video);
    }
  }

  /** The first track of a kind depends only on the kinds of the tracks. */
  lemma {:induction false} FirstOfKindSameKinds(a: seq<Track>, b: seq<Track>, k: TrackKind)
    requires |a| == |b| && forall j :: 0 <= j < |a| ==> a[j].kind == b[j].kind
    ensures FirstOfKind(a, k) == FirstOfKind(b, k)
    decreases |a|
  {
    if |a| > 0 {
      FirstOfKindSameKinds(a[1..], b[1..], k);
    }
  }

  // ---------------------------------------------------------------------------
  // Relay messages from the other participant
  // ---------------------------------------------------------------------------

  /** Incoming `call-request`: the Accept/Reject prompt, naming the caller. */
  function OnCallRequest(c: Call, fromUserId: string, participants: seq<User>): (r: Call)
    ensures r.isCallRequested && r.status == "Incoming call..."
    ensures r.remoteUser == Some(RemoteUserFor(participants, fromUserId))
    ensures r.remoteUser.value.id == fromUserId
    ensures r.(isCallRequested := c.isCallRequested, remoteUser := c.remoteUser, status := c.status) == c
  {
    c.(isCallRequested := true, remoteUser := Some(RemoteUserFor(participants, fromUserId)),
       status := "Incoming call...")
  }

  /** `call-accept` on the caller's side: the call is on; the caller acquires media and,
      if that works, creates one peer connection sending every track, sets the offer
      as its local description and sends exactly one `call-offer`. If the media request
      fails it stops there, with no peer connection created. */
  function OnCallAccepted(c: Call, fromUserId: string, participants: seq<User>,
                          acquired: Option<Stream>, pcId: nat, offer: Relay.Sdp): (r: Call)
    ensures !r.isCallRequesting
    ensures acquired.Some? ==>
      && r.isInCall && r.local == acquired
      && r.pc.Some? && r.pc.value.id == pcId && !r.pc.value.closed
      && r.pc.value.senders == TrackIds(acquired.value.tracks)
      && r.pc.value.localDescription == Some(offer)
      && r.sent == c.sent + [Relay.CallOffer(c.roomId, offer, c.me)]
      && r.remoteUser == Some(RemoteUserFor(participants, fromUserId))
      && r.status == "Call accepted. Establishing media..."
      && r.retiredStreams == c.retiredStreams + (if c.local.Some? then [c.local.value] else [])
      && r.retiredPeers == c.retiredPeers
           + (if c.pc.Some? then [c.pc.value.(senders := TrackIds(acquired.value.tracks))] else [])
      && r.(isCallRequesting := c.isCallRequesting, isInCall := c.isInCall, status := c.status,
            remoteUser := c.remoteUser, local := c.local, pc := c.pc, sent := c.sent,
            retiredStreams := c.retiredStreams, retiredPeers := c.retiredPeers) == c
    ensures acquired.None? ==>
      && Idle(r) && r.status == MediaError
      && r.pc == c.pc && r.local == c.local && r.sent == c.sent
  {
    var accepted := c.(isCallRequesting := false, isInCall := true,
                       status := "Call accepted. Establishing media...",
                       remoteUser := Some(RemoteUserFor(participants, fromUserId)));
    var (c1, stream) := StartLocalStream(accepted, acquired);
    match stream
    case None => c1
    case Some(s) =>
      var c2 := Install(c1, NewPeer(pcId, s).(localDescription := Some(offer)));
      c2.(sent := c2.sent + [Relay.CallOffer(c.roomId, offer, c.me)])
  }

  /** `call-reject` on the caller's side: the request is withdrawn. */
  function OnCallReject(c: Call): (r: Call)
    ensures !r.isCallRequesting && r.status == "Call rejected"
    ensures r == c.(isCallRequesting := false, status := r.status)
  {
    c.(isCallRequesting := false, status := "Call rejected")
  }

  /** `call-end` from the other side: the flags and remote user are reset and the remote
      stream cleared, but the local tracks keep running and the peer connection is
      neither closed nor dropped. */
  function OnCallEnd(c: Call): (r: Call)
    ensures Idle(r) && r.status == "Call ended by remote user" && r.remoteStream.None?
    ensures r.local == c.local && r.pc == c.pc && r.sent == c.sent
    ensures r.retiredStreams == c.retiredStreams && r.retiredPeers == c.retiredPeers
  {
    Reset(c).(status := "Call ended by remote user", remoteStream := None)
  }

  /** `call-offer` on the callee's side: acquire media again; if that works, create a peer
      connection sending every track, apply the offer, and send exactly one `call-answer`.
      A connection left from an earlier call is dropped without being closed, and the
      flags, status and remote user stay as they were. If the media request fails,
      nothing is created and no answer is sent. */
  function OnCallOffer(c: Call, offer: Relay.Sdp, acquired: Option<Stream>, pcId: nat, answer: Relay.Sdp): (r: Call)
    ensures acquired.Some? ==>
      && r.local == acquired
      && r.pc.Some? && r.pc.value.id == pcId && !r.pc.value.closed
      && r.pc.value.senders == TrackIds(acquired.value.tracks)
      && r.pc.value.remoteDescription == Some(offer) && r.pc.value.localDescription == Some(answer)
      && r.sent == c.sent + [Relay.CallAnswer(c.roomId, answer, c.me)]
      && r.retiredStreams == c.retiredStreams + (if c.local.Some? then [c.local.value] else [])
      && r.retiredPeers == c.retiredPeers
           + (if c.pc.Some? then [c.pc.value.(senders := TrackIds(acquired.value.tracks))] else [])
      && r.(local := c.local, pc := c.pc, sent := c.sent, retiredStreams := c.retiredStreams,
            retiredPeers := c.retiredPeers) == c
    ensures acquired.None? ==>
      && Idle(r) && r.status == MediaError
      && r.pc == c.pc && r.local == c.local && r.sent == c.sent
  {
    var (c1, stream) := StartLocalStream(c, acquired);
    match stream
    case None => c1
    case Some(s) =>
      var p := NewPeer(pcId, s).(remoteDescription := Some(offer), localDescription := Some(answer));
      var c2 := Install(c1, p);
      c2.(sent := c2.sent + [Relay.CallAnswer(c.roomId, answer, c.me)])
  }

  /** `call-answer`: applied to the peer connection if there is one, dropped otherwise. */
  function OnCallAnswer(c: Call, answer: Relay.Sdp): (r: Call)
    ensures c.pc.None? ==> r == c
    ensures c.pc.Some? ==> r == c.(pc := Some(c.pc.value.(remoteDescription := Some(answer))))
  {
    match c.pc
    case None => c
    case Some(p) => c.(pc := Some(p.(remoteDescription := Some(answer))))
  }

  /** `ice-candidate`: added to the peer connection if there is one, dropped otherwise. */
  function OnIceCandidate(c: Call, candidate: Relay.Candidate): (r: Call)
    ensures c.pc.None? ==> r == c
    ensures c.pc.Some? ==> r == c.(pc := Some(c.pc.value.(candidates := c.pc.value.candidates + [candidate])))
  {
    match c.pc
    case None => c
    case Some(p) => c.(pc := Some(p.(candidates := p.candidates + [candidate])))
  }

  // ---------------------------------------------------------------------------
  // Peer-connection callbacks
  // ---------------------------------------------------------------------------

  /** A local ICE candidate is sent as it is found; the end-of-candidates event is not. */
  function OnLocalCandidate(c: Call, candidate: Option<Relay.Candidate>): (r: Call)
    ensures candidate.None? ==> r == c
    ensures candidate.Some? ==> r == c.(sent := c.sent + [Relay.IceCandidateMsg(c.roomId, candidate.value, c.me)])
  {
    match candidate
    case None => c
    case Some(x) => c.(sent := c.sent + [Relay.IceCandidateMsg(c.roomId, x, c.me)])
  }

  /** A remote track arrives: its stream is kept; the call becomes active only when the
      remote video element is mounted. */
  function OnTrack(c: Call, stream: nat, videoMounted: bool): (r: Call)
    ensures r.remoteStream == Some(stream)
    ensures videoMounted ==> r.isCallActive && r.status == "Connected"
    ensures !videoMounted ==> r == c.(remoteStream := Some(stream))
  {
    var c1 := c.(remoteStream := Some(stream));
    if videoMounted then c1.(isCallActive := true, status := "Connected") else c1
  }

  /** ICE state changes: "connected" activates the call; "disconnected" and "failed"
      reset the flags and remote user but leave the media and the connection alone;
      the other states change nothing. */
  function OnIceState(c: Call, s: IceState): (r: Call)
    ensures s == IceConnected ==> r == c.(isCallActive := true, status := "Connected")
    ensures s == IceDisconnected || s == IceFailed ==>
      && Idle(r) && r.status == "Disconnected"
      && r.local == c.local && r.pc == c.pc && r.sent == c.sent
    ensures s !in {IceConnected, IceDisconnected, IceFailed} ==> r == c
  {
    match s
    case IceConnected => c.(isCallActive := true, status := "Connected")
    case IceDisconnected => Reset(c).(status := "Disconnected")
    case IceFailed => Reset(c).(status := "Disconnected")
    case _ => c
  }

  /** Unmounting stops the local tracks and closes the peer connection in place. */
  function Unmount(c: Call): (r: Call)
    ensures r.local.Some? == c.local.Some? && r.pc.Some? == c.pc.Some?
    ensures c.local.Some? ==> LiveCount(r.local.value.tracks) == 0
    ensures c.pc.Some? ==> r.pc.value.closed
    ensures r.sent == c.sent
  {
    var local := if c.local.Some? then Some(c.local.value.(tracks := StopAll(c.local.value.tracks))) else None;
    var pc := if c.pc.Some? then Some(c.pc.value.(closed := true)) else None;
    c.(local := local, pc := pc)
  }

  // ---------------------------------------------------------------------------
  // Properties across handlers
  // ---------------------------------------------------------------------------

  /** Live tracks still held by the current stream. */
  function LocalLive(c: Call): nat {
    if c.local.Some? then LiveCount(c.local.value.tracks) else 0
  }

  /** Live tracks of all streams the component dropped without stopping. */
  function RetiredLive(ss: seq<Stream>): nat {
    if |ss| == 0 then 0 else LiveCount(ss[|ss| - 1].tracks) + RetiredLive(ss[..|ss| - 1])
  }

  lemma RetiredLiveSnoc(ss: seq<Stream>, s: Stream)
    ensures RetiredLive(ss + [s]) == RetiredLive(ss) + LiveCount(s.tracks)
  {
    assert (ss + [s])[..|ss|] == ss;
  }

  /** Teardown is asymmetric. Ending locally leaves no live local track and no peer
      connection; the other side's `call-end` and an ICE failure reset the same flags
      but keep the stream live and the connection open. */
  lemma TeardownAsymmetry(c: Call)
    ensures LocalLive(EndCall(c)) == 0 && EndCall(c).pc.None?
    ensures RetiredLive(EndCall(c).retiredStreams) == RetiredLive(c.retiredStreams)
    ensures Idle(OnCallEnd(c)) && LocalLive(OnCallEnd(c)) == LocalLive(c) && OnCallEnd(c).pc == c.pc
    ensures Idle(OnIceState(c, IceFailed)) && LocalLive(OnIceState(c, IceFailed)) == LocalLive(c)
            && OnIceState(c, IceFailed).pc == c.pc
  {
    if c.local.Some? {
      RetiredLiveSnoc(c.retiredStreams, c.local.value.(tracks := StopAll(c.local.value.tracks)));
    }
  }

  /** The caller's path: from an idle component, Start Call then the callee's accept with
      media yields one peer connection sending every local track and exactly two messages,
      `call-request` then `call-offer`. */
  lemma CallerFlow(c: Call, from: string, participants: seq<User>, s: Stream, pcId: nat, offer: Relay.Sdp)
    requires CanStartCall(c) && c.pc.None?
    ensures var r := OnCallAccepted(RequestCall(c), from, participants, Some(s), pcId, offer);
      && r.isInCall && !r.isCallRequesting && r.local == Some(s)
      && r.pc.Some? && r.pc.value.senders == TrackIds(s.tracks) && r.retiredPeers == c.retiredPeers
      && r.sent == c.sent + [Relay.CallRequest(c.roomId, c.me), Relay.CallOffer(c.roomId, offer, c.me)]
  {
  }

  /** The callee's path: accepting acquires one stream and the offer acquires another,
      which replaces the first without stopping it; ending the call then stops only the
      second, so the first stream's tracks stay live. */
  lemma CalleeAcceptLeaksFirstStream(c: Call, s1: Stream, s2: Stream, offer: Relay.Sdp, pcId: nat, answer: Relay.Sdp)
    requires c.local.None? && c.pc.None?
    ensures var accepted := AcceptCall(c, Some(s1));
      var offered := OnCallOffer(accepted, offer, Some(s2), pcId, answer);
      var ended := EndCall(offered);
      && accepted.pc.None? && accepted.local == Some(s1)
      && offered.pc.Some? && offered.pc.value.senders == TrackIds(s2.tracks)
      && offered.sent == c.sent + [Relay.CallAccept(c.roomId, c.me), Relay.CallAnswer(c.roomId, answer, c.me)]
      && LocalLive(ended) == 0
      && RetiredLive(ended.retiredStreams) == RetiredLive(c.retiredStreams) + LiveCount(s1.tracks)
  {
    var accepted := AcceptCall(c, Some(s1));
    var offered := OnCallOffer(accepted, offer, Some(s2), pcId, answer);
    assert accepted.retiredStreams == c.retiredStreams;
    assert offered.retiredStreams == c.retiredStreams + [s1];
    RetiredLiveSnoc(c.retiredStreams, s1);
    var stopped := s2.(tracks := StopAll(s2.tracks));
    assert LiveCount(stopped.tracks) == 0;
    RetiredLiveSnoc(offered.retiredStreams, stopped);
  }

  /** A callee whose last call the other side ended still holds that call's open
      connection; a new offer replaces it without closing it, so it stays open among
      the dropped connections. */
  lemma RemoteEndThenOfferLeaksPeer(c: Call, offer: Relay.Sdp, s: Stream, pcId: nat, answer: Relay.Sdp)
    requires c.pc.Some? && !c.pc.value.closed
    ensures var r := OnCallOffer(OnCallEnd(c), offer, Some(s), pcId, answer);
      && |r.retiredPeers| == |c.retiredPeers| + 1
      && r.retiredPeers[|c.retiredPeers|].id == c.pc.value.id
      && !r.retiredPeers[|c.retiredPeers|].closed
      && r.pc.Some? && r.pc.value.id == pcId
  {
  }

  /** The caller's handshake completes on the connection it offered from: the answer
      becomes its remote description and the callee's candidates are added to it, while
      the offer, the senders, the flags and the messages sent stay as they were. */
  lemma CallerHandshake(c: Call, from: string, participants: seq<User>, s: Stream, pcId: nat,
                        offer: Relay.Sdp, answer: Relay.Sdp, cand: Relay.Candidate)
    requires CanStartCall(c) && c.pc.None?
    ensures var offered := OnCallAccepted(RequestCall(c), from, participants, Some(s), pcId, offer);
      var done := OnIceCandidate(OnCallAnswer(offered, answer), cand);
      && done.pc.Some? && done.pc.value.id == pcId
      && done.pc.value.localDescription == Some(offer) && done.pc.value.remoteDescription == Some(answer)
      && done.pc.value.candidates == [cand] && done.pc.value.senders == TrackIds(s.tracks)
      && done.sent == offered.sent && done.local == offered.local && done.isInCall
  {
  }

  /** Without a peer connection, answers and remote candidates are dropped. */
  lemma SignalsWithoutPeerDropped(c: Call, answer: Relay.Sdp, cand: Relay.Candidate)
    requires c.pc.None?
    ensures OnCallAnswer(c, answer) == c && OnIceCandidate(c, cand) == c
    ensures OnIceCandidate(OnCallAnswer(EndCall(c), answer), cand) == EndCall(c)
  {
  }

  /** Reaching "connected" twice is the same as reaching it once. */
  lemma IceConnectedIdempotent(c: Call)
    ensures OnIceState(OnIceState(c, IceConnected), IceConnected) == OnIceState(c, IceConnected)
  {
  }
}

=== FILE: createform.dfy ===
/** `handleCreateRoom` of `src/components/create-room-form.tsx`: store a new room id
    and join it as its creator under a 5 s timer; success opens the room's own editor
    page, failure and timeout only end the busy state. Unmounting the form drops
    the shared relay connection. */
module CreateForm {
  import opened Base
  import Relay
  import opened Attempt

  datatype Creator = Creator(
    relay: Relay.Client,
    userId: string,
    isCreating: bool,
    storedRoomId: Option<string>,
    attempt: string,
    timers: seq<Timer>,
    navigations: seq<string>)

  /** The editor page of one room. */
  function RoomPath(roomId: string): (p: string)
    ensures |p| > |EditorPath| && p[..|EditorPath|] == EditorPath
    ensures p != EditorPath
  {
    EditorPath + "/" + roomId
  }

  /** The Create Room button (never disabled) at time `now`, with the freshly generated
      id: busy, the id stored, one more timer started (earlier ones keep running) and
      `join-room` sent as a create. */
  function Create(f: Creator, roomId: string, now: int): (r: Creator)
    ensures r.isCreating && r.storedRoomId == Some(roomId) && r.attempt == roomId
    ensures r.timers == f.timers + [Armed(now + ResponseTimeoutMs)] && r.navigations == f.navigations
    ensures r.relay.slot.Some?
    ensures r.relay.slot.value.outbox == Relay.Current(f.relay).outbox + [Relay.JoinRoomMsg(roomId, f.userId, true)]
    ensures Fired(r.relay, Joined) == [SuccessToken]
  {
    AfterJoin(f.relay, roomId, f.userId, true, "");
    f.(isCreating := true, storedRoomId := Some(roomId), attempt := roomId, timers := f.timers + [Arm(now)],
       relay := Relay.JoinRoom(f.relay, roomId, f.userId, SuccessToken, ErrorToken, true))
  }

  /** The body of each registered callback; the error message is only logged. */
  function Callback(f: Creator, token: nat): Creator {
    if token == SuccessToken then
      f.(timers := ClearLatest(f.timers), isCreating := false, navigations := f.navigations + [RoomPath(f.attempt)])
    else if token == ErrorToken then
      f.(timers := ClearLatest(f.timers), isCreating := false)
    else f
  }

  function Run(f: Creator, tokens: seq<nat>): Creator
    decreases |tokens|
  {
    if |tokens| == 0 then f else Run(Callback(f, tokens[0]), tokens[1..])
  }

  /** A relay response arrives. */
  function OnRelay(f: Creator, response: Response): Creator {
    Run(f, Fired(f.relay, response))
  }

  /** Time advances to `now`: each due timer ends the busy state, whichever attempt armed
      it (the error is only logged). */
  function Tick(f: Creator, now: int): (r: Creator)
    ensures !AnyDue(f.timers, now) ==> r == f
    ensures AnyDue(f.timers, now) ==> r == f.(timers := FireDue(f.timers, now), isCreating := false)
  {
    if AnyDue(f.timers, now) then f.(timers := FireDue(f.timers, now), isCreating := false) else f
  }

  /** The form unmounts: the shared connection is dropped. */
  function Unmount(f: Creator): (r: Creator)
    ensures r.relay.slot.None? && r.relay.created == f.relay.created
    ensures r == f.(relay := r.relay)
  {
    f.(relay := Relay.Disconnect(f.relay))
  }

  lemma RunOne(f: Creator, t: nat)
    ensures Run(f, [t]) == Callback(f, t)
  {
    assert [t][1..] == [];
  }

  /** Success opens the new room's own page, unlike the join flows' `/editor`. */
  lemma SuccessOpensRoomPage(f: Creator, roomId: string, now: int)
    ensures var r := OnRelay(Create(f, roomId, now), Joined);
      && !r.isCreating && r.timers == f.timers + [NoTimer]
      && r.navigations == f.navigations + [EditorPath + "/" + roomId]
      && r.navigations[|f.navigations|] != EditorPath
  {
    RunOne(Create(f, roomId, now), SuccessToken);
  }

  /** A failure changes nothing the user can see except the busy state: no error line,
      no navigation; the stored id stays and the attempt's own timer is cleared. */
  lemma FailureOnlyEndsBusy(f: Creator, roomId: string, now: int, msg: string)
    ensures var c := Create(f, roomId, now); var r := OnRelay(c, NotAvailable(msg));
      r == c.(isCreating := false, timers := f.timers + [NoTimer])
  {
    var c := Create(f, roomId, now);
    AfterJoin(f.relay, roomId, f.userId, true, msg);
    RunOne(c, ErrorToken);
  }

  /** The timeout does the same as a failure: only the busy state ends (with the due
      timers gone). */
  lemma TimeoutOnlyEndsBusy(f: Creator, roomId: string, t0: int, t1: int)
    requires t1 >= t0 + ResponseTimeoutMs
    ensures var c := Create(f, roomId, t0);
      && Tick(c, t1) == c.(isCreating := false, timers := FireDue(c.timers, t1))
      && Tick(c, t1).timers[|f.timers|] == NoTimer
  {
    var c := Create(f, roomId, t0);
    assert Due(c.timers[|f.timers|], t1);
  }

  /** A second click before the first answer: the first attempt's callbacks are replaced,
      so its timer is never cleared and ends the busy state while the second attempt is
      still in flight; that attempt's success later still opens its room. */
  lemma RepeatClickEndsBusyEarly(f: Creator, id1: string, id2: string, t0: int, t1: int, t2: int)
    requires t0 <= t1 && t0 + ResponseTimeoutMs <= t2 < t1 + ResponseTimeoutMs
    ensures var twice := Create(Create(f, id1, t0), id2, t1); var r := Tick(twice, t2);
      && !r.isCreating && r.timers[|f.timers| + 1] == Arm(t1)
      && OnRelay(r, Joined).navigations == f.navigations + [RoomPath(id2)]
  {
    var once := Create(f, id1, t0);
    var twice := Create(once, id2, t1);
    assert Due(twice.timers[|f.timers|], t2);
    var r := Tick(twice, t2);
    assert r.relay == twice.relay && r.attempt == id2;
    RunOne(r, SuccessToken);
  }

  /** After unmounting, the next use of the relay opens a new connection. */
  lemma UnmountThenNewConnection(f: Creator)
    requires Relay.Valid(f.relay)
    ensures var s := Relay.GetSocket(Unmount(f).relay).1;
      && s.id == f.relay.created && !s.connected && s.outbox == []
      && (f.relay.slot.Some? ==> s.id != f.relay.slot.value.id)
  {
    Relay.DisconnectThenGetIsFresh(f.relay);
  }
}

=== FILE: createhook.dfy ===
/** `createRoomLogic` of `src/hooks/createroom.ts`: store a new room id, start the 5 s
    timer, create the room in the database, and only if that returned a room join it
    as its creator. The timer is cleared only by the relay's answer. */
module CreateHook {
  import opened Base
  import Relay
  import opened Attempt

  /** What the database call gave back: a room, nothing, or an exception. */
  datatype DbResult = Created | NotCreated | DbThrew

  datatype Hook = Hook(
    relay: Relay.Client,
    userId: string,
    roomId: string,
    storedRoomId: Option<string>,
    awaitingDb: bool,
    timer: Timer,
    toasts: seq<Toast>,
    navigations: seq<string>)

  const DbError: string := "Failed to create room in database."
  const CreateError: string := "Failed to create room."

  function SuccessMessage(roomId: string): string {
    "Successfully created room " + roomId
  }

  /** The call, up to the database request: the id is stored and the timer started;
      nothing is sent yet. */
  function Begin(relay: Relay.Client, userId: string, roomId: string, now: int): (h: Hook)
    ensures h.storedRoomId == Some(roomId) && h.awaitingDb && h.timer == Armed(now + ResponseTimeoutMs)
    ensures h.relay == relay && h.toasts == [] && h.navigations == []
  {
    Hook(relay, userId, roomId, Some(roomId), true, Arm(now), [], [])
  }

  /** The database request returns. A room: `join-room` is sent as a create. No room:
      an error toast, nothing sent. An exception: the generic error toast. In the last
      two cases the timer is left running. */
  function DbReturned(h: Hook, result: DbResult): (r: Hook)
    ensures r.timer == h.timer && r.navigations == h.navigations && !r.awaitingDb
    ensures !h.awaitingDb ==> r == h
    ensures h.awaitingDb && result == Created ==>
      && r.toasts == h.toasts && r.relay.slot.Some?
      && r.relay.slot.value.outbox == Relay.Current(h.relay).outbox + [Relay.JoinRoomMsg(h.roomId, h.userId, true)]
      && Fired(r.relay, Joined) == [SuccessToken]
    ensures h.awaitingDb && result == NotCreated ==> r == h.(awaitingDb := false, toasts := h.toasts + [ErrorToast(DbError)])
    ensures h.awaitingDb && result == DbThrew ==> r == h.(awaitingDb := false, toasts := h.toasts + [ErrorToast(CreateError)])
  {
    if !h.awaitingDb then h
    else
      match result
      case Created =>
        AfterJoin(h.relay, h.roomId, h.userId, true, "");
        h.(awaitingDb := false,
           relay := Relay.JoinRoom(h.relay, h.roomId, h.userId, SuccessToken, ErrorToken, true))
      case NotCreated => h.(awaitingDb := false, toasts := h.toasts + [ErrorToast(DbError)])
      case DbThrew => h.(awaitingDb := false, toasts := h.toasts + [ErrorToast(CreateError)])
  }

  /** The body of each registered callback. */
  function Callback(h: Hook, token: nat, response: Response): Hook {
    if token == SuccessToken then
      h.(timer := NoTimer, toasts := h.toasts + [SuccessToast(SuccessMessage(h.roomId))],
         navigations := h.navigations + [EditorPath])
    else if token == ErrorToken then
      h.(timer := NoTimer, toasts := h.toasts + [ErrorToast(Message(response))])
    else h
  }

  function Run(h: Hook, tokens: seq<nat>, response: Response): Hook
    decreases |tokens|
  {
    if |tokens| == 0 then h else Run(Callback(h, tokens[0], response), tokens[1..], response)
  }

  /** A relay response arrives. */
  function OnRelay(h: Hook, response: Response): Hook {
    Run(h, Fired(h.relay, response), response)
  }

  /** Time advances to `now`: a due timer shows the timeout toast. */
  function Tick(h: Hook, now: int): (r: Hook)
    ensures !Due(h.timer, now) ==> r == h
    ensures Due(h.timer, now) ==> r == h.(timer := NoTimer, toasts := h.toasts + [ErrorToast(TimeoutError)])
  {
    if Due(h.timer, now) then h.(timer := NoTimer, toasts := h.toasts + [ErrorToast(TimeoutError)]) else h
  }

  lemma RunOne(h: Hook, t: nat, response: Response)
    ensures Run(h, [t], response) == Callback(h, t, response)
  {
    assert [t][1..] == [];
  }

  /** No room in the database: nothing is sent, yet the timer still fires, so the user
      sees the database error followed by the timeout error. */
  lemma DbFailureStillTimesOut(relay: Relay.Client, userId: string, roomId: string, t0: int, t1: int, t2: int)
    requires t1 < t0 + ResponseTimeoutMs <= t2
    ensures var failed := DbReturned(Tick(Begin(relay, userId, roomId, t0), t1), NotCreated);
      && failed.relay == relay
      && Tick(failed, t2).toasts == [ErrorToast(DbError), ErrorToast(TimeoutError)]
      && Tick(failed, t2).navigations == []
  {
  }

  /** The room is created and joined before the deadline: one success toast, the editor
      opens, and the cleared timer never fires. */
  lemma CreatedAndJoined(relay: Relay.Client, userId: string, roomId: string, t0: int, t1: int, t2: int)
    requires t1 < t0 + ResponseTimeoutMs
    ensures var joined := DbReturned(Begin(relay, userId, roomId, t0), Created);
      var r := OnRelay(Tick(joined, t1), Joined);
      && joined.relay.slot.Some?
      && joined.relay.slot.value.outbox == Relay.Current(relay).outbox + [Relay.JoinRoomMsg(roomId, userId, true)]
      && r.toasts == [SuccessToast(SuccessMessage(roomId))] && r.navigations == [EditorPath]
      && Tick(r, t2) == r
  {
    var joined := DbReturned(Begin(relay, userId, roomId, t0), Created);
    RunOne(joined, SuccessToken, Joined);
  }

  /** The join is refused: the relay's message is shown and the timer cleared. */
  lemma CreatedButRefused(relay: Relay.Client, userId: string, roomId: string, t0: int, msg: string)
    ensures var joined := DbReturned(Begin(relay, userId, roomId, t0), Created);
      var r := OnRelay(joined, NotAvailable(msg));
      && r.toasts == [ErrorToast(msg)] && r.navigations == [] && r.timer.NoTimer?
  {
    var joined := DbReturned(Begin(relay, userId, roomId, t0), Created);
    AfterJoin(relay, roomId, userId, true, msg);
    RunOne(joined, ErrorToken, NotAvailable(msg));
  }
}

=== FILE: cursors.dfy ===
/** Remote cursor presence of `src/components/collaborative-cursor.tsx`: the
    deterministic colour of a user, the map of cursor records keyed by the remote
    connection id, its event handlers, the stale sweep and the render guard. */
module Cursors {
  import opened Base
  import Relay

  // ---------------------------------------------------------------------------
  // Colour of a user
  // ---------------------------------------------------------------------------

  /** The 15 cursor colours, in order (the entry "#85C1E9" occurs twice). */
  const Palette: seq<string> := [
    "#FF6B6B", "#4ECDC4", "#45B7D1", "#96CEB4", "#FFEAA7",
    "#DDA0DD", "#98D8C8", "#F7DC6F", "#BB8FCE", "#85C1E9",
    "#F8C471", "#82E0AA", "#F1948A", "#85C1E9", "#FAD7A0"]

  /** One step of the hash reduction: `a = (a << 5) - a + code; return a & a`.
      The shift and the `&` both wrap to a signed 32-bit integer; the subtraction
      and addition in between are exact. */
  function HashStep(a: int, c: char): (r: int)
    requires IsInt32(a)
    ensures IsInt32(r)
    ensures r == ToInt32(31 * a + c as int)
  {
    var shifted := ToInt32(a * 32);
    ToInt32Congruent(shifted - a + c as int, 31 * a + c as int);
    ToInt32(shifted - a + c as int)
  }

  /** The hash of a user id: the reduction over its characters, left to right, from 0. */
  function Hash(s: string): (r: int)
    ensures IsInt32(r)
  {
    if |s| == 0 then 0 else HashStep(Hash(s[..|s| - 1]), s[|s| - 1])
  }

  /** The same hash without intermediate wrapping: the base-31 polynomial of the codes. */
  function Poly(s: string): int {
    if |s| == 0 then 0 else 31 * Poly(s[..|s| - 1]) + s[|s| - 1] as int
  }

  /** Wrapping at every step gives the 32-bit wrap of the exact polynomial. */
  lemma {:induction false} HashIsWrappedPoly(s: string)
    ensures Hash(s) == ToInt32(Poly(s))
    decreases |s|
  {
    if |s| > 0 {
      var p := s[..|s| - 1];
      var c := s[|s| - 1] as int;
      HashIsWrappedPoly(p);
      ToInt32Affine(Poly(p), Hash(p), c);
    }
  }

  /** `Math.abs(hash) % colors.length`. */
  function ColorIndex(userId: string): (i: int)
    ensures 0 <= i < |Palette|
  {
    var h := Hash(userId);
    (if h < 0 then -h else h) % |Palette|
  }

  /** `generateRandomColor`: a palette entry chosen by the hash of the user id. */
  function ColorOf(userId: string): (r: string)
    ensures r in Palette
    ensures r == Palette[ColorIndex(userId)]
    ensures userId == "" ==> r == "#FF6B6B"
  {
    Palette[ColorIndex(userId)]
  }

  /** The hash computed by a loop over the characters, as the reduction runs. */
  method ComputeHash(s: string) returns (h: int)
    ensures h == Hash(s)
    ensures h == ToInt32(Poly(s))
  {
    h := 0;
    var i := 0;
    while i < |s|
      invariant 0 <= i <= |s|
      invariant h == Hash(s[..i])
    {
      assert s[..i + 1][..i] == s[..i];
      h := HashStep(h, s[i]);
      i := i + 1;
    }
    assert s[..|s|] == s;
    HashIsWrappedPoly(s);
  }

  // ---------------------------------------------------------------------------
  // Cursor records
  // ---------------------------------------------------------------------------

  /** A stored record; every field but `lastUpdate` may be absent, because a record
      starts as the empty object and only the fields of each update are merged in. */
  datatype Cursor = Cursor(
    position: Option<Relay.Position>,
    selection: Option<Relay.Selection>,
    userId: Option<string>,
    userInfo: Option<Relay.UserInfo>,
    isVisible: Option<bool>,
    lastUpdate: int)

  /** A partial record: the fields an update carries. */
  datatype Patch = Patch(
    position: Option<Relay.Position>,
    selection: Option<Relay.Selection>,
    userId: Option<string>,
    userInfo: Option<Relay.UserInfo>,
    isVisible: Option<bool>)

  /** Cursor records keyed by the remote connection id. */
  type CursorMap = map<string, Cursor>

  const StaleAfterMs: int := 10000
  const SweepIntervalMs: int := 5000

  /** A field of `{...existing, ...updates}`: the update's value when it carries one. */
  function Pick<T>(update: Option<T>, existing: Option<T>): (r: Option<T>)
    ensures update.Some? ==> r == update
    ensures update.None? ==> r == existing
  {
    if update.Some? then update else existing
  }

  /** `updateCursor(socketId, updates)` at time `now`. */
  function Update(m: CursorMap, socketId: string, p: Patch, now: int): (r: CursorMap)
    ensures r.Keys == m.Keys + {socketId}
    ensures forall k :: k in m && k != socketId ==> r[k] == m[k]
    ensures r[socketId].lastUpdate == now
    ensures p.position.Some? ==> r[socketId].position == p.position
    ensures p.selection.Some? ==> r[socketId].selection == p.selection
    ensures p.userId.Some? ==> r[socketId].userId == p.userId
    ensures p.userInfo.Some? ==> r[socketId].userInfo == p.userInfo
    ensures p.isVisible.Some? ==> r[socketId].isVisible == p.isVisible
    ensures p.position.None? ==> r[socketId].position == (if socketId in m then m[socketId].position else None)
    ensures p.selection.None? ==> r[socketId].selection == (if socketId in m then m[socketId].selection else None)
    ensures p.userId.None? ==> r[socketId].userId == (if socketId in m then m[socketId].userId else None)
    ensures p.userInfo.None? ==> r[socketId].userInfo == (if socketId in m then m[socketId].userInfo else None)
    ensures p.isVisible.None? ==> r[socketId].isVisible == (if socketId in m then m[socketId].isVisible else None)
  {
    var e := if socketId in m then m[socketId] else Cursor(None, None, None, None, None, now);
    m[socketId := Cursor(
      Pick(p.position, e.position), Pick(p.selection, e.selection), Pick(p.userId, e.userId),
      Pick(p.userInfo, e.userInfo), Pick(p.isVisible, e.isVisible), now)]
  }

  /** `removeCursor(socketId)`. */
  function Remove(m: CursorMap, socketId: string): (r: CursorMap)
    ensures r.Keys == m.Keys - {socketId}
    ensures forall k :: k in r ==> r[k] == m[k]
    ensures socketId !in m ==> r == m
  {
    m - {socketId}
  }

  /** Removing twice is removing once. */
  lemma RemoveIdempotent(m: CursorMap, socketId: string)
    ensures Remove(Remove(m, socketId), socketId) == Remove(m, socketId)
  {
  }

  /** `cursor-move`: the position is replaced and the record is visible. */
  function OnCursorMove(m: CursorMap, socketId: string, position: Relay.Position, userId: string,
                        info: Relay.UserInfo, now: int): (r: CursorMap)
    ensures r.Keys == m.Keys + {socketId}
    ensures forall k :: k in m && k != socketId ==> r[k] == m[k]
    ensures r[socketId].position == Some(position) && r[socketId].isVisible == Some(true)
    ensures r[socketId].userId == Some(userId) && r[socketId].userInfo == Some(info)
    ensures r[socketId].selection == (if socketId in m then m[socketId].selection else None)
    ensures r[socketId].lastUpdate == now
  {
    Update(m, socketId, Patch(Some(position), None, Some(userId), Some(info), Some(true)), now)
  }

  /** `cursor-selection`: the selection is replaced and the record is visible. */
  function OnCursorSelection(m: CursorMap, socketId: string, selection: Relay.Selection, userId: string,
                             info: Relay.UserInfo, now: int): (r: CursorMap)
    ensures r.Keys == m.Keys + {socketId}
    ensures forall k :: k in m && k != socketId ==> r[k] == m[k]
    ensures r[socketId].selection == Some(selection) && r[socketId].isVisible == Some(true)
    ensures r[socketId].userId == Some(userId) && r[socketId].userInfo == Some(info)
    ensures r[socketId].position == (if socketId in m then m[socketId].position else None)
    ensures r[socketId].lastUpdate == now
  {
    Update(m, socketId, Patch(None, Some(selection), Some(userId), Some(info), Some(true)), now)
  }

  /** `cursor-visibility`: hiding removes the record outright; showing upserts it as visible. */
  function OnCursorVisibility(m: CursorMap, socketId: string, isVisible: bool, userId: string,
                              info: Relay.UserInfo, now: int): (r: CursorMap)
    ensures !isVisible ==> r == Remove(m, socketId) && socketId !in r
    ensures isVisible ==>
      && r.Keys == m.Keys + {socketId}
      && (forall k :: k in m && k != socketId ==> r[k] == m[k])
      && r[socketId].isVisible == Some(true) && r[socketId].lastUpdate == now
      && r[socketId].userId == Some(userId) && r[socketId].userInfo == Some(info)
      && r[socketId].position == (if socketId in m then m[socketId].position else None)
      && r[socketId].selection == (if socketId in m then m[socketId].selection else None)
  {
    if isVisible then Update(m, socketId, Patch(None, None, Some(userId), Some(info), Some(true)), now)
    else Remove(m, socketId)
  }

  /** `user-left`: the leaving connection's record is removed. */
  function OnUserLeft(m: CursorMap, socketId: string): (r: CursorMap)
    ensures socketId !in r && r.Keys == m.Keys - {socketId}
    ensures forall k :: k in r ==> r[k] == m[k]
  {
    Remove(m, socketId)
  }

  /** A message as the relay server forwards it to the other clients of the room, tagged
      with the sender's connection id: a cursor message reaches the handler of its kind
      with its payload (the room id is dropped); any other message leaves the map alone. */
  function Deliver(m: CursorMap, senderId: string, msg: Relay.Msg, now: int): (r: CursorMap)
    ensures msg.CursorMove? ==>
      senderId in r && r[senderId].position == Some(msg.position) && r[senderId].isVisible == Some(true)
    ensures msg.CursorSelection? ==>
      senderId in r && r[senderId].selection == Some(msg.selection) && r[senderId].isVisible == Some(true)
    ensures msg.CursorVisibility? ==> (senderId in r <==> msg.isVisible)
    ensures msg.CursorMove? || msg.CursorSelection? || msg.CursorVisibility? ==>
      r.Keys - {senderId} == m.Keys - {senderId} && forall k :: k in m && k != senderId ==> k in r && r[k] == m[k]
    ensures !(msg.CursorMove? || msg.CursorSelection? || msg.CursorVisibility?) ==> r == m
  {
    match msg
    case CursorMove(_, position, userId, info) => OnCursorMove(m, senderId, position, userId, info, now)
    case CursorSelection(_, selection, userId, info) => OnCursorSelection(m, senderId, selection, userId, info, now)
    case CursorVisibility(_, isVisible, userId, info) => OnCursorVisibility(m, senderId, isVisible, userId, info, now)
    case _ => m
  }

  /** What each cursor emitter sends is exactly what the receiving handler applies: the
      last message of the sender's outbox, once delivered, runs the matching handler on
      the same position, selection or visibility, user id and user info. */
  lemma EmittedCursorsArrive(c: Relay.Client, roomId: string, position: Relay.Position, selection: Relay.Selection,
                             isVisible: bool, userId: string, info: Relay.UserInfo,
                             m: CursorMap, senderId: string, now: int)
    ensures var o := Relay.EmitCursorMove(c, roomId, position, userId, info).slot.value.outbox;
      Deliver(m, senderId, o[|o| - 1], now) == OnCursorMove(m, senderId, position, userId, info, now)
    ensures var o := Relay.EmitCursorSelection(c, roomId, selection, userId, info).slot.value.outbox;
      Deliver(m, senderId, o[|o| - 1], now) == OnCursorSelection(m, senderId, selection, userId, info, now)
    ensures var o := Relay.EmitCursorVisibility(c, roomId, isVisible, userId, info).slot.value.outbox;
      Deliver(m, senderId, o[|o| - 1], now) == OnCursorVisibility(m, senderId, isVisible, userId, info, now)
  {
  }

  /** A record is stale at `now` when it was last updated more than 10 s earlier. */
  predicate Stale(c: Cursor, now: int) {
    now - c.lastUpdate > StaleAfterMs
  }

  /** The periodic sweep at time `now`: drops exactly the stale records. */
  function Sweep(m: CursorMap, now: int): (r: CursorMap)
    ensures forall k :: k in r <==> k in m && !Stale(m[k], now)
    ensures forall k :: k in r ==> r[k] == m[k]
  {
    map k | k in m && !Stale(m[k], now) :: m[k]
  }

  /** A second sweep at the same time removes nothing more. */
  lemma SweepIdempotent(m: CursorMap, now: int)
    ensures Sweep(Sweep(m, now), now) == Sweep(m, now)
  {
  }

  /** With sweeps every 5 s from `start`, a record last updated at `u` is gone after the
      first sweep later than `u + 10000`, and that sweep comes at most 5 s after it. */
  lemma StaleGoneWithinOneInterval(m: CursorMap, id: string, start: int)
    requires id in m && start <= m[id].lastUpdate + StaleAfterMs
    ensures var u := m[id].lastUpdate;
      var k := (u + StaleAfterMs - start) / SweepIntervalMs + 1;
      var t := start + k * SweepIntervalMs;
      && u + StaleAfterMs < t <= u + StaleAfterMs + SweepIntervalMs
      && id !in Sweep(m, t)
  {
  }

  /** Every record the handlers create is visible and names its user: hiding removes
      instead of storing `isVisible = false`. */
  predicate WellFormed(m: CursorMap) {
    forall k :: k in m ==> m[k].isVisible == Some(true) && m[k].userId.Some? && m[k].userInfo.Some?
  }

  /** The incoming cursor events and the sweep preserve `WellFormed`. */
  lemma HandlersPreserveWellFormed(m: CursorMap, id: string, pos: Relay.Position, sel: Relay.Selection,
                                   vis: bool, userId: string, info: Relay.UserInfo, now: int)
    requires WellFormed(m)
    ensures WellFormed(OnCursorMove(m, id, pos, userId, info, now))
    ensures WellFormed(OnCursorSelection(m, id, sel, userId, info, now))
    ensures WellFormed(OnCursorVisibility(m, id, vis, userId, info, now))
    ensures WellFormed(OnUserLeft(m, id))
    ensures WellFormed(Sweep(m, now))
  {
  }

  // ---------------------------------------------------------------------------
  // Render guard
  // ---------------------------------------------------------------------------

  /** A cursor is drawn only when it is visible and both its position and the
      50 ms debounced copy of it are present. */
  predicate Renders(isVisible: bool, position: Option<Relay.Position>, debounced: Option<Relay.Position>) {
    isVisible && position.Some? && debounced.Some?
  }

  /** For a record of a well-formed map, drawing depends only on the positions: a
      record that only ever received selections is never drawn. */
  lemma RenderedRecords(m: CursorMap, id: string, debounced: Option<Relay.Position>)
    requires WellFormed(m) && id in m
    ensures Renders(m[id].isVisible.GetOr(false), m[id].position, debounced)
            <==> m[id].position.Some? && debounced.Some?
  {
  }

  lemma SelectionOnlyNeverRenders(id: string, sel: Relay.Selection, userId: string, info: Relay.UserInfo,
                                  now: int, debounced: Option<Relay.Position>)
    ensures var m := OnCursorSelection(map[], id, sel, userId, info, now);
      !Renders(m[id].isVisible.GetOr(false), m[id].position, debounced)
  {
  }
}

=== FILE: execution.dfy ===
/** The code-execution route of `src/app/api/execution.ts`: the request forwarded
    to the sandbox, the choice of the text shown as the run's result, and the
    normalisation of errors into a status-500 reply. */
module Execution {
  import opened Base

  /** The `run` part of a sandbox reply; each field may be absent. */
  datatype RunData = RunData(output: Option<string>, stdout: Option<string>, stderr: Option<string>)

  /** The body the route receives. */
  datatype ExecRequest = ExecRequest(language: string, code: string, input: string)

  datatype SourceFile = SourceFile(name: string, content: string)

  /** The body the route forwards to the sandbox. */
  datatype SandboxRequest = SandboxRequest(language: string, version: string, files: seq<SourceFile>, stdin: string)

  /** A thrown value, classified the way the route's `catch` inspects it. */
  datatype Thrown = ErrorObject(message: string) | StringValue(text: string) | OtherValue

  /** What happened inside the route's `try`: a reply whose `run` may be missing, or a throw. */
  datatype Outcome = Answered(run: Option<RunData>) | Threw(thrown: Thrown)

  /** The route's JSON reply. */
  datatype Reply = Result(result: string) | ErrorReply(error: string, status: int)

  const NoOutput: string := "No output"
  const UnknownError: string := "Unknown error"
  const ServerErrorStatus: int := 500

  /** The body sent to the sandbox: any version, one file called `main` holding the
      code, and the input as standard input. */
  function Forward(req: ExecRequest): (r: SandboxRequest)
    ensures r.language == req.language && r.version == "*" && r.stdin == req.input
    ensures |r.files| == 1 && r.files[0].name == "main" && r.files[0].content == req.code
  {
    SandboxRequest(req.language, "*", [SourceFile("main", req.code)], req.input)
  }

  /** The route's request can be read back from the forwarded body. */
  lemma ForwardLosesNothing(a: ExecRequest, b: ExecRequest)
    ensures Forward(a) == Forward(b) <==> a == b
  {
    if Forward(a) == Forward(b) {
      assert Forward(a).files[0].content == Forward(b).files[0].content;
    }
  }

  /** The fields of a reply's `run`, in the order the `||` chain tries them
      (all absent when `run` itself is). */
  function Fields(run: Option<RunData>): seq<Option<string>> {
    match run
    case Some(d) => [d.output, d.stdout, d.stderr]
    case None => [None, None, None]
  }

  /** `run?.output || run?.stdout || run?.stderr || "No output"`. */
  function SelectResult(run: Option<RunData>): (r: string)
    ensures r != ""
  {
    var fields := Fields(run);
    Or(Or(Or(fields[0], fields[1]), fields[2]), Some(NoOutput)).value
  }

  /** The chosen text is the first truthy field, or "No output" when none is truthy;
      in particular a missing `run` gives "No output" rather than an error. */
  lemma SelectResultIsFirstTruthy(run: Option<RunData>)
    ensures SelectResult(run) == Coalesce(Fields(run), NoOutput)
    ensures run.None? ==> SelectResult(run) == NoOutput
    ensures run.Some? && Truthy(run.value.output) ==> SelectResult(run) == run.value.output.value
    ensures run.Some? && !Truthy(run.value.output) && Truthy(run.value.stdout)
            ==> SelectResult(run) == run.value.stdout.value
    ensures run.Some? && !Truthy(run.value.output) && !Truthy(run.value.stdout) && Truthy(run.value.stderr)
            ==> SelectResult(run) == run.value.stderr.value
    ensures SelectResult(run) == NoOutput || exists i :: 0 <= i < 3 && Fields(run)[i] == Some(SelectResult(run))
  {
    var f := Fields(run);
    assert f[1..][1..][1..] == [];
    CoalesceIsFirstTruthy(f, NoOutput);
    if Truthy(f[0]) {
      assert f[0] == Some(SelectResult(run));
    } else if Truthy(f[1]) {
      assert f[1] == Some(SelectResult(run));
    } else if Truthy(f[2]) {
      assert f[2] == Some(SelectResult(run));
    }
  }

  /** The message of the error reply: an `Error`'s message, a thrown string itself,
      anything else "Unknown error". */
  function ErrorMessage(t: Thrown): (m: string)
    ensures t.ErrorObject? ==> m == t.message
    ensures t.StringValue? ==> m == t.text
    ensures t.OtherValue? ==> m == UnknownError
  {
    match t
    case ErrorObject(msg) => msg
    case StringValue(s) => s
    case OtherValue => UnknownError
  }

  /** `POST /api/execution`: a result that is never empty, or an error reply with status 500. */
  function Post(outcome: Outcome): (r: Reply)
    ensures outcome.Answered? <==> r.Result?
    ensures r.Result? ==> r.result == SelectResult(outcome.run) && r.result != ""
    ensures r.ErrorReply? ==> r.status == ServerErrorStatus && r.error == ErrorMessage(outcome.thrown)
  {
    match outcome
    case Answered(run) => Result(SelectResult(run))
    case Threw(t) => ErrorReply(ErrorMessage(t), ServerErrorStatus)
  }
}

=== FILE: joinform.dfy ===
/** `handleJoinRoom` of `src/components/join-room-form.tsx`: validate the typed id,
    give up at once when the relay is not connected, otherwise check that the room
    exists and then join it under a 5 s timer. Errors are shown in the form. */
module JoinForm {
  import opened Base
  import Relay
  import opened Attempt

  /** The form: the typed id; the id the latest existence callbacks were created with
      (`attempt`) and the id the latest join callbacks were created with (`joining`,
      captured when `room-exists` arrived); the busy flag and error line, the id stored
      in the shared store, the timer and the navigations made. */
  datatype Form = Form(
    relay: Relay.Client,
    input: string,
    attempt: string,
    joining: string,
    isJoining: bool,
    error: string,
    storedRoomId: Option<string>,
    timer: Timer,
    navigations: seq<string>,
    userId: string)

  const ConnectingError: string := "Connecting to server... Please try again in a moment."

  function Init(relay: Relay.Client, userId: string): (f: Form)
    ensures f.input == "" && !f.isJoining && f.error == "" && f.timer.NoTimer? && f.navigations == []
  {
    Form(relay, "", "", "", false, "", None, NoTimer, [], userId)
  }

  /** The Join button. A blank id (empty or only whitespace) only shows an error. A
      relay that is not connected yet shows the connecting message and sends nothing.
      Otherwise the room is checked under the id exactly as typed, untrimmed. */
  function Submit(f: Form): (r: Form)
    ensures r.timer == f.timer && r.navigations == f.navigations && r.storedRoomId == f.storedRoomId
    ensures Blank(f.input) ==> r == f.(error := BlankIdError)
    ensures !Blank(f.input) ==>
      && r.relay.slot.Some?
      && r.relay.slot.value.outbox == Relay.Current(f.relay).outbox
           + (if Relay.Current(f.relay).connected then [Relay.CheckRoom(f.input)] else [])
    ensures !Blank(f.input) && !Relay.Current(f.relay).connected ==>
      !r.isJoining && r.error == ConnectingError
    ensures !Blank(f.input) && Relay.Current(f.relay).connected ==>
      && r.isJoining && r.error == "" && r.attempt == f.input
      && Fired(r.relay, Exists) == [ExistsToken] && Fired(r.relay, NotExists) == [NotExistsToken]
  {
    if Blank(f.input) then f.(error := BlankIdError)
    else
      var (c1, s) := Relay.GetSocket(f.relay);
      var busy := f.(isJoining := true, error := "", relay := c1);
      if !s.connected then
        busy.(error := ConnectingError, isJoining := false)
      else
        AfterCheck(c1, f.input);
        busy.(attempt := f.input, relay := Relay.CheckRoomExists(c1, f.input, ExistsToken, NotExistsToken))
  }

  /** The body of each registered callback. The join callbacks are created by the
      `room-exists` callback, so they carry that attempt's id, not the form's latest. */
  function Callback(f: Form, token: nat, response: Response, now: int): Form {
    if token == ExistsToken then
      f.(timer := Arm(now), joining := f.attempt,
         relay := Relay.JoinRoom(f.relay, f.attempt, f.userId, SuccessToken, ErrorToken, false))
    else if token == NotExistsToken then
      f.(isJoining := false, error := NotExistsError)
    else if token == SuccessToken then
      f.(timer := NoTimer, isJoining := false, storedRoomId := Some(f.joining),
         navigations := f.navigations + [EditorPath])
    else if token == ErrorToken then
      f.(timer := NoTimer, isJoining := false, error := Message(response))
    else f
  }

  function Run(f: Form, tokens: seq<nat>, response: Response, now: int): Form
    decreases |tokens|
  {
    if |tokens| == 0 then f else Run(Callback(f, tokens[0], response, now), tokens[1..], response, now)
  }

  /** A relay response arrives at time `now`. */
  function OnRelay(f: Form, response: Response, now: int): Form {
    Run(f, Fired(f.relay, response), response, now)
  }

  /** Time advances to `now`: a due timer ends the attempt with the timeout error. */
  function Tick(f: Form, now: int): (r: Form)
    ensures !Due(f.timer, now) ==> r == f
    ensures Due(f.timer, now) ==> r == f.(timer := NoTimer, isJoining := false, error := TimeoutError)
  {
    if Due(f.timer, now) then f.(timer := NoTimer, isJoining := false, error := TimeoutError) else f
  }

  lemma RunOne(f: Form, t: nat, response: Response, now: int)
    ensures Run(f, [t], response, now) == Callback(f, t, response, now)
  {
    assert [t][1..] == [];
  }

  /** The attempt after a successful check at `t0` with the relay connected. */
  function Joining(f: Form, t0: int): Form {
    OnRelay(Submit(f), Exists, t0)
  }

  lemma JoiningState(f: Form, t0: int)
    requires !Blank(f.input) && Relay.Current(f.relay).connected
    ensures var s := Submit(f);
      Joining(f, t0) == s.(timer := Arm(t0), joining := f.input, relay := Relay.JoinRoom(s.relay, f.input, f.userId, SuccessToken, ErrorToken, false))
  {
    RunOne(Submit(f), ExistsToken, Exists, t0);
  }

  /** The room does not exist: the attempt ends with the not-exists error and no
      `join-room` is sent. */
  lemma NotExistsEndsAttempt(f: Form, now: int)
    requires !Blank(f.input) && Relay.Current(f.relay).connected
    ensures var s := Submit(f); var r := OnRelay(s, NotExists, now);
      && !r.isJoining && r.error == NotExistsError && r.relay == s.relay
      && r.relay.slot.value.outbox == Relay.Current(f.relay).outbox + [Relay.CheckRoom(f.input)]
  {
    RunOne(Submit(f), NotExistsToken, NotExists, now);
  }

  /** The join answers before the deadline: the id as typed is stored, the user lands
      on the editor, and the cleared timer never fires. */
  lemma SuccessStoresAndNavigates(f: Form, t0: int, t1: int, t2: int)
    requires !Blank(f.input) && Relay.Current(f.relay).connected
    requires t1 < t0 + ResponseTimeoutMs
    ensures var j := Joining(f, t0); var r := OnRelay(Tick(j, t1), Joined, t1);
      && j.relay.slot.Some? && j.relay.slot.value.outbox
           == Relay.Current(f.relay).outbox + [Relay.CheckRoom(f.input), Relay.JoinRoomMsg(f.input, f.userId, false)]
      && !r.isJoining && r.error == "" && r.storedRoomId == Some(f.input)
      && r.navigations == f.navigations + [EditorPath]
      && Tick(r, t2) == r
  {
    var j := Joining(f, t0);
    JoiningState(f, t0);
    AfterJoin(Submit(f).relay, f.input, f.userId, false, "");
    RunOne(j, SuccessToken, Joined, t1);
  }

  /** The join fails before the deadline: the relay's message is shown and the timer cleared. */
  lemma ErrorShowsMessage(f: Form, t0: int, t1: int, msg: string)
    requires !Blank(f.input) && Relay.Current(f.relay).connected
    ensures var r := OnRelay(Joining(f, t0), NotAvailable(msg), t1);
      && !r.isJoining && r.error == msg && r.timer.NoTimer? && r.navigations == f.navigations
  {
    var j := Joining(f, t0);
    JoiningState(f, t0);
    AfterJoin(Submit(f).relay, f.input, f.userId, false, msg);
    RunOne(j, ErrorToken, NotAvailable(msg), t1);
  }

  /** The timer fires first: the timeout error is shown; a success arriving later still
      stores the id and navigates, and leaves the timeout error on the form. */
  lemma TimeoutThenLateSuccess(f: Form, t0: int, t1: int, t2: int)
    requires !Blank(f.input) && Relay.Current(f.relay).connected
    requires t1 >= t0 + ResponseTimeoutMs
    ensures var timedOut := Tick(Joining(f, t0), t1); var late := OnRelay(timedOut, Joined, t2);
      && !timedOut.isJoining && timedOut.error == TimeoutError
      && late.navigations == f.navigations + [EditorPath] && late.error == TimeoutError
      && late.storedRoomId == Some(f.input)
  {
    var j := Joining(f, t0);
    JoiningState(f, t0);
    AfterJoin(Submit(f).relay, f.input, f.userId, false, "");
    RunOne(Tick(j, t1), SuccessToken, Joined, t2);
  }

  /** Enter pressed again, with another id, while the join is in flight: a new
      `check-room` is sent, but the join callbacks keep the id they were created with,
      so a `room-joined` stores the room actually joined, not the one now typed. */
  lemma ResubmitKeepsJoinedId(f: Form, t0: int, t1: int, other: string)
    requires !Blank(f.input) && Relay.Current(f.relay).connected && !Blank(other)
    ensures var j := Joining(f, t0); var again := Submit(j.(input := other));
      var r := OnRelay(again, Joined, t1);
      && again.relay.slot.value.outbox == Relay.Current(f.relay).outbox
           + [Relay.CheckRoom(f.input), Relay.JoinRoomMsg(f.input, f.userId, false), Relay.CheckRoom(other)]
      && r.storedRoomId == Some(f.input) && r.navigations == f.navigations + [EditorPath]
  {
    var j := Joining(f, t0);
    JoiningState(f, t0);
    AfterJoin(Submit(f).relay, f.input, f.userId, false, "");
    var again := Submit(j.(input := other));
    assert Fired(again.relay, Joined) == Fired(j.relay, Joined);
    RunOne(again, SuccessToken, Joined, t1);
  }
}

=== FILE: joinhook.dfy ===
/** `joinRoomLogic` of `src/hooks/joinroom.ts`: store the room id, ask whether the
    room exists, and only then join it under a 5 s timer; the outcome is a promise
    that settles once, whichever of the responses and the timer comes first. */
module JoinHook {
  import opened Base
  import Relay
  import opened Attempt

  datatype Promise = Pending | Resolved | Rejected(reason: string)

  datatype Hook = Hook(
    relay: Relay.Client,
    storedRoomId: Option<string>,
    roomId: string,
    userId: string,
    promise: Promise,
    timer: Timer,
    toasts: seq<Toast>,
    navigations: seq<string>)

  const NotExistsReason: string := "Room does not exist"
  const TimeoutReason: string := "Connection timeout"

  /** `resolve` / `reject`: only the first call settles the promise. */
  function Settle(p: Promise, outcome: Promise): (r: Promise)
    ensures !p.Pending? ==> r == p
    ensures p.Pending? ==> r == outcome
  {
    if p.Pending? then outcome else p
  }

  /** The call itself: the room id is stored before anything is sent, then
      `checkRoomExists` registers the two room callbacks; no timer runs yet and
      no `join-room` is sent. */
  function Start(relay: Relay.Client, roomId: string, userId: string): (h: Hook)
    ensures h.storedRoomId == Some(roomId) && h.promise.Pending? && h.timer.NoTimer?
    ensures h.toasts == [] && h.navigations == [] && h.roomId == roomId && h.userId == userId
    ensures h.relay.slot.Some?
    ensures var before := Relay.Current(relay).outbox; var after := h.relay.slot.value.outbox;
      after == before || after == before + [Relay.CheckRoom(roomId)]
  {
    Hook(Relay.CheckRoomExists(relay, roomId, ExistsToken, NotExistsToken),
         Some(roomId), roomId, userId, Pending, NoTimer, [], [])
  }

  /** The body of each registered callback. */
  function Callback(h: Hook, token: nat, response: Response, now: int): Hook {
    if token == ExistsToken then
      h.(timer := Arm(now),
         relay := Relay.JoinRoom(h.relay, h.roomId, h.userId, SuccessToken, ErrorToken, false))
    else if token == NotExistsToken then
      h.(toasts := h.toasts + [ErrorToast(NotExistsError)],
         promise := Settle(h.promise, Rejected(NotExistsReason)))
    else if token == SuccessToken then
      h.(timer := NoTimer, navigations := h.navigations + [EditorPath],
         promise := Settle(h.promise, Resolved))
    else if token == ErrorToken then
      h.(timer := NoTimer, toasts := h.toasts + [ErrorToast(Message(response))],
         promise := Settle(h.promise, Rejected(Message(response))))
    else h
  }

  /** Runs the given callbacks in order. */
  function Run(h: Hook, tokens: seq<nat>, response: Response, now: int): Hook
    decreases |tokens|
  {
    if |tokens| == 0 then h else Run(Callback(h, tokens[0], response, now), tokens[1..], response, now)
  }

  /** A relay response arrives at time `now`. */
  function OnRelay(h: Hook, response: Response, now: int): Hook {
    Run(h, Fired(h.relay, response), response, now)
  }

  /** The relay client connects (it sends any deferred `check-room`). */
  function OnConnect(h: Hook): Hook {
    h.(relay := Relay.OnConnect(h.relay))
  }

  /** Time advances to `now`: a due timer toasts and rejects with the timeout. */
  function Tick(h: Hook, now: int): (r: Hook)
    ensures !Due(h.timer, now) ==> r == h
    ensures Due(h.timer, now) ==>
      && r.timer.NoTimer? && r.toasts == h.toasts + [ErrorToast(TimeoutError)]
      && r.relay == h.relay && r.navigations == h.navigations
      && (h.promise.Pending? ==> r.promise == Rejected(TimeoutReason))
  {
    if Due(h.timer, now) then
      h.(timer := NoTimer, toasts := h.toasts + [ErrorToast(TimeoutError)],
         promise := Settle(h.promise, Rejected(TimeoutReason)))
    else h
  }

  lemma RunOne(h: Hook, t: nat, response: Response, now: int)
    ensures Run(h, [t], response, now) == Callback(h, t, response, now)
  {
    assert [t][1..] == [];
  }

  /** No callback can change a promise once it has settled. */
  lemma {:induction false} RunKeepsSettled(h: Hook, tokens: seq<nat>, response: Response, now: int)
    requires !h.promise.Pending?
    ensures Run(h, tokens, response, now).promise == h.promise
    decreases |tokens|
  {
    if |tokens| > 0 {
      RunKeepsSettled(Callback(h, tokens[0], response, now), tokens[1..], response, now);
    }
  }

  /** The promise settles at most once: after it has, no response and no timer changes it. */
  lemma SettlesOnce(h: Hook, response: Response, now: int)
    requires !h.promise.Pending?
    ensures OnRelay(h, response, now).promise == h.promise
    ensures Tick(h, now).promise == h.promise
  {
    RunKeepsSettled(h, Fired(h.relay, response), response, now);
  }

  /** The room does not exist: the promise rejects, one error is shown, and nothing
      beyond the `check-room` is ever sent. */
  lemma NotExistsRejects(relay: Relay.Client, roomId: string, userId: string, now: int)
    ensures var h := Start(relay, roomId, userId); var r := OnRelay(h, NotExists, now);
      && r.promise == Rejected(NotExistsReason) && r.toasts == [ErrorToast(NotExistsError)]
      && r.relay == h.relay && r.timer.NoTimer? && r.navigations == []
      && r.storedRoomId == Some(roomId)
  {
    var h := Start(relay, roomId, userId);
    AfterCheck(relay, roomId);
    RunOne(h, NotExistsToken, NotExists, now);
  }

  /** The room exists: only now is `join-room` sent (as a join, not a create) and the
      5 s timer started; the promise is still pending. */
  lemma ExistsJoins(relay: Relay.Client, roomId: string, userId: string, now: int)
    ensures var h := Start(relay, roomId, userId); var r := OnRelay(h, Exists, now);
      && r.promise.Pending? && r.timer == Armed(now + ResponseTimeoutMs)
      && r.relay.slot.Some?
      && r.relay.slot.value.outbox == h.relay.slot.value.outbox + [Relay.JoinRoomMsg(roomId, userId, false)]
  {
    var h := Start(relay, roomId, userId);
    AfterCheck(relay, roomId);
    RunOne(h, ExistsToken, Exists, now);
  }

  /** The state after the room was found at `t0`. */
  function Joining(relay: Relay.Client, roomId: string, userId: string, t0: int): Hook {
    OnRelay(Start(relay, roomId, userId), Exists, t0)
  }

  lemma JoiningState(relay: Relay.Client, roomId: string, userId: string, t0: int)
    ensures var h := Start(relay, roomId, userId);
      Joining(relay, roomId, userId, t0)
        == h.(timer := Arm(t0), relay := Relay.JoinRoom(h.relay, roomId, userId, SuccessToken, ErrorToken, false))
  {
    AfterCheck(relay, roomId);
    RunOne(Start(relay, roomId, userId), ExistsToken, Exists, t0);
  }

  /** The join answers before the deadline: the timer is cleared, the user lands on the
      editor, the promise resolves, and no later tick can change any of it. */
  lemma SuccessBeforeTimeout(relay: Relay.Client, roomId: string, userId: string, t0: int, t1: int, t2: int)
    requires t1 < t0 + ResponseTimeoutMs
    ensures var j := Joining(relay, roomId, userId, t0);
      var r := OnRelay(Tick(j, t1), Joined, t1);
      && r.promise == Resolved && r.navigations == [EditorPath] && r.timer.NoTimer? && r.toasts == []
      && Tick(r, t2) == r
  {
    var j := Joining(relay, roomId, userId, t0);
    JoiningState(relay, roomId, userId, t0);
    assert Tick(j, t1) == j;
    AfterJoin(Start(relay, roomId, userId).relay, roomId, userId, false, "");
    RunOne(j, SuccessToken, Joined, t1);
  }

  /** The join fails: the timer is cleared and the promise rejects with the relay's message. */
  lemma ErrorRejectsWithMessage(relay: Relay.Client, roomId: string, userId: string, t0: int, t1: int, msg: string)
    requires t1 < t0 + ResponseTimeoutMs
    ensures var r := OnRelay(Joining(relay, roomId, userId, t0), NotAvailable(msg), t1);
      && r.promise == Rejected(msg) && r.toasts == [ErrorToast(msg)] && r.timer.NoTimer?
      && r.navigations == []
  {
    var j := Joining(relay, roomId, userId, t0);
    JoiningState(relay, roomId, userId, t0);
    AfterJoin(Start(relay, roomId, userId).relay, roomId, userId, false, msg);
    RunOne(j, ErrorToken, NotAvailable(msg), t1);
  }

  /** The timer fires first: the promise rejects with the timeout; a success arriving
      afterwards still navigates to the editor but leaves the promise rejected. */
  lemma LateSuccessAfterTimeout(relay: Relay.Client, roomId: string, userId: string, t0: int, t1: int, t2: int)
    requires t1 >= t0 + ResponseTimeoutMs
    ensures var timedOut := Tick(Joining(relay, roomId, userId, t0), t1);
      var late := OnRelay(timedOut, Joined, t2);
      && timedOut.promise == Rejected(TimeoutReason) && timedOut.toasts == [ErrorToast(TimeoutError)]
      && late.navigations == [EditorPath] && late.promise == Rejected(TimeoutReason)
  {
    var j := Joining(relay, roomId, userId, t0);
    JoiningState(relay, roomId, userId, t0);
    var timedOut := Tick(j, t1);
    AfterJoin(Start(relay, roomId, userId).relay, roomId, userId, false, "");
    RunOne(timedOut, SuccessToken, Joined, t2);
  }
}

=== FILE: navbar.dfy ===
/** `handleJoinRoom` of `src/components/navbar.tsx`: validate the stored room id and
    join it directly (no existence check) under a 5 s timer; opening the dialog
    resets the error line and the busy flag. */
module NavbarJoin {
  import opened Base
  import Relay
  import opened Attempt

  /** The navbar: `roomId` is the shared store's value, which the dialog edits. */
  datatype Navbar = Navbar(
    relay: Relay.Client,
    roomId: string,
    userId: string,
    isJoining: bool,
    error: string,
    timers: seq<Timer>,
    navigations: seq<string>)

  /** The dialog's Join button (or Enter, which works while busy) at time `now`. A blank
      id only shows an error; otherwise the error is cleared, one more timer started
      (earlier ones keep running) and `join-room` sent at once. */
  function Submit(n: Navbar, now: int): (r: Navbar)
    ensures r.navigations == n.navigations && r.roomId == n.roomId
    ensures Blank(n.roomId) ==> r == n.(error := BlankIdError)
    ensures !Blank(n.roomId) ==>
      && r.isJoining && r.error == "" && r.timers == n.timers + [Armed(now + ResponseTimeoutMs)]
      && r.relay.slot.Some?
      && r.relay.slot.value.outbox == Relay.Current(n.relay).outbox + [Relay.JoinRoomMsg(n.roomId, n.userId, false)]
      && Fired(r.relay, Joined) == [SuccessToken]
  {
    if Blank(n.roomId) then n.(error := BlankIdError)
    else
      AfterJoin(n.relay, n.roomId, n.userId, false, "");
      n.(error := "", isJoining := true, timers := n.timers + [Arm(now)],
         relay := Relay.JoinRoom(n.relay, n.roomId, n.userId, SuccessToken, ErrorToken, false))
  }

  /** The body of each registered callback. */
  function Callback(n: Navbar, token: nat, response: Response): Navbar {
    if token == SuccessToken then
      n.(timers := ClearLatest(n.timers), isJoining := false, navigations := n.navigations + [EditorPath])
    else if token == ErrorToken then
      n.(timers := ClearLatest(n.timers), isJoining := false, error := Message(response))
    else n
  }

  function Run(n: Navbar, tokens: seq<nat>, response: Response): Navbar
    decreases |tokens|
  {
    if |tokens| == 0 then n else Run(Callback(n, tokens[0], response), tokens[1..], response)
  }

  /** A relay response arrives. */
  function OnRelay(n: Navbar, response: Response): Navbar {
    Run(n, Fired(n.relay, response), response)
  }

  /** Time advances to `now`: each due timer ends the attempt with the timeout error,
      whichever attempt armed it. */
  function Tick(n: Navbar, now: int): (r: Navbar)
    ensures !AnyDue(n.timers, now) ==> r == n
    ensures AnyDue(n.timers, now) ==>
      r == n.(timers := FireDue(n.timers, now), isJoining := false, error := TimeoutError)
  {
    if AnyDue(n.timers, now) then n.(timers := FireDue(n.timers, now), isJoining := false, error := TimeoutError)
    else n
  }

  /** The dialog opens or closes: opening clears the error and the busy flag; the timer
      of an attempt in flight keeps running. */
  function OpenChange(n: Navbar, open: bool): (r: Navbar)
    ensures open ==> r.error == "" && !r.isJoining
    ensures !open ==> r == n
    ensures r.timers == n.timers && r.relay == n.relay && r.navigations == n.navigations
  {
    if open then n.(error := "", isJoining := false) else n
  }

  lemma RunOne(n: Navbar, t: nat, response: Response)
    ensures Run(n, [t], response) == Callback(n, t, response)
  {
    assert [t][1..] == [];
  }

  /** The join answers: success navigates to the editor, failure shows the relay's
      message; either way the attempt ends and its own timer is cleared. */
  lemma Outcomes(n: Navbar, now: int, msg: string)
    requires !Blank(n.roomId)
    ensures var s := Submit(n, now); var ok := OnRelay(s, Joined); var err := OnRelay(s, NotAvailable(msg));
      && !ok.isJoining && ok.timers == n.timers + [NoTimer] && ok.navigations == n.navigations + [EditorPath]
      && ok.error == ""
      && !err.isJoining && err.timers == n.timers + [NoTimer] && err.navigations == n.navigations
      && err.error == msg
  {
    var s := Submit(n, now);
    AfterJoin(n.relay, n.roomId, n.userId, false, msg);
    RunOne(s, SuccessToken, Joined);
    RunOne(s, ErrorToken, NotAvailable(msg));
  }

  /** No answer by the deadline: the attempt ends with the timeout error. */
  lemma TimesOut(n: Navbar, t0: int, t1: int)
    requires !Blank(n.roomId) && t1 >= t0 + ResponseTimeoutMs
    ensures var r := Tick(Submit(n, t0), t1);
      !r.isJoining && r.error == TimeoutError && r.timers[|n.timers|] == NoTimer
  {
    var s := Submit(n, t0);
    assert Due(s.timers[|n.timers|], t1);
  }

  /** Reopening the dialog while an attempt is in flight clears the form, but the old
      attempt's timer still fires later and puts the timeout error back. */
  lemma ReopenDoesNotCancelTimer(n: Navbar, t0: int, t1: int)
    requires !Blank(n.roomId) && t1 >= t0 + ResponseTimeoutMs
    ensures var reopened := OpenChange(Submit(n, t0), true);
      && reopened.error == "" && !reopened.isJoining
      && Tick(reopened, t1).error == TimeoutError
  {
    var s := Submit(n, t0);
    assert Due(s.timers[|n.timers|], t1);
  }

  /** Enter pressed twice: the first attempt's callbacks are replaced, so nothing ever
      clears its timer. The second attempt succeeds and the user lands on the editor,
      yet at the first deadline the timeout error still appears. */
  lemma DoubleSubmitLateTimeout(n: Navbar, t0: int, t1: int, t2: int)
    requires !Blank(n.roomId) && t0 <= t1 && t2 >= t0 + ResponseTimeoutMs
    ensures var twice := Submit(Submit(n, t0), t1); var ok := OnRelay(twice, Joined);
      && ok.navigations == n.navigations + [EditorPath] && ok.error == ""
      && ok.timers == n.timers + [Arm(t0), NoTimer]
      && Tick(ok, t2).error == TimeoutError && Tick(ok, t2).navigations == ok.navigations
  {
    var once := Submit(n, t0);
    var twice := Submit(once, t1);
    AfterJoin(once.relay, n.roomId, n.userId, false, "");
    RunOne(twice, SuccessToken, Joined);
    var ok := OnRelay(twice, Joined);
    assert ok.timers == n.timers + [Arm(t0), NoTimer];
    assert Due(ok.timers[|n.timers|], t2);
  }
}

=== FILE: relay.dfy ===
/** The relay client of `src/lib/socket-client.ts`: a lazily created, process-wide
    connection slot, the listener table for the one-shot room responses, and the
    append-only outbox of messages sent to the relay. */
module Relay {
  import opened Base

  // ---------------------------------------------------------------------------
  // Messages and payloads
  // ---------------------------------------------------------------------------

  datatype Position = Position(x: int, y: int)
  datatype Selection = Selection(startLine: int, startColumn: int, endLine: int, endColumn: int)
  datatype UserInfo = UserInfo(name: string, color: string, avatar: Option<string>)

  /** Opaque WebRTC payloads (session descriptions and ICE candidates). */
  type Sdp = nat
  type Candidate = nat

  /** Every message a client sends to the relay, with its payload. */
  datatype Msg =
    | JoinRoomMsg(roomId: string, userId: string, isCreating: bool)
    | CheckRoom(roomId: string)
    | CursorMove(roomId: string, position: Position, userId: string, userInfo: UserInfo)
    | CursorSelection(roomId: string, selection: Selection, userId: string, userInfo: UserInfo)
    | CursorVisibility(roomId: string, isVisible: bool, userId: string, userInfo: UserInfo)
    | ChangeLanguage(language: string, roomId: string)
    | CodeChanged(roomId: string, code: string)
    | InputChanged(roomId: string, input: string)
    | RunCode(roomId: string, output: string, language: string, input: string, code: string)
    | ExecutionStatus(roomId: string, isRunning: bool)
    | CallRequest(roomId: string, fromUserId: string)
    | CallAccept(roomId: string, fromUserId: string)
    | CallReject(roomId: string, fromUserId: string)
    | CallEnd(roomId: string, fromUserId: string)
    | CallOffer(roomId: string, offer: Sdp, fromUserId: string)
    | CallAnswer(roomId: string, answer: Sdp, fromUserId: string)
    | IceCandidateMsg(roomId: string, candidate: Candidate, fromUserId: string)

  // ---------------------------------------------------------------------------
  // Connection slot and listener table
  // ---------------------------------------------------------------------------

  /** The relay events whose listeners `joinRoom` and `checkRoomExists` manage. */
  datatype Topic = RoomJoined | RoomNotAvailable | RoomExists | RoomNotExists | Connected

  /** A registered listener: a caller's callback (named by a token), or the deferred
      `check-room` send that `checkRoomExists` leaves on the connect event. */
  datatype Listener = Callback(token: nat) | SendCheckRoom(roomId: string)

  /** The options every new connection is opened with. */
  datatype Options = Options(
    timeoutMs: int, forceNew: bool, reconnection: bool,
    reconnectionAttempts: int, reconnectionDelayMs: int, reconnectionDelayMaxMs: int)

  const DefaultOptions: Options := Options(20000, false, true, 5, 1000, 5000)
  const DefaultUrl: string := "http://localhost:8000"

  datatype Socket = Socket(
    id: nat,                              // distinguishes connection instances
    url: string,
    options: Options,
    connected: bool,
    handlers: map<Topic, seq<Listener>>,
    outbox: seq<Msg>)

  /** The module-level slot; `created` counts the connections ever opened and
      `envUrl` is the configured relay address, if any. */
  datatype Client = Client(slot: Option<Socket>, created: nat, envUrl: Option<string>)

  /** Every connection in the slot was created earlier. */
  predicate Valid(c: Client) {
    c.slot.Some? ==> c.slot.value.id < c.created
  }

  function Listeners(s: Socket, t: Topic): seq<Listener> {
    if t in s.handlers then s.handlers[t] else []
  }

  /** The callback tokens a relay event of topic `t` invokes, in registration order. */
  function Fired(ls: seq<Listener>): (r: seq<nat>)
    ensures |r| <= |ls|
  {
    if |ls| == 0 then []
    else (if ls[0].Callback? then [ls[0].token] else []) + Fired(ls[1..])
  }

  /** The `check-room` messages the deferred listeners send, in registration order. */
  function DeferredSends(ls: seq<Listener>): (r: seq<Msg>)
    ensures |r| <= |ls|
  {
    if |ls| == 0 then []
    else (if ls[0].SendCheckRoom? then [CheckRoom(ls[0].roomId)] else []) + DeferredSends(ls[1..])
  }

  // ---------------------------------------------------------------------------
  // getSocket / disconnectSocket
  // ---------------------------------------------------------------------------

  /** `getSocket`: the connection in the slot, or a new, not yet connected one
      (stored in the slot) when the slot is empty. */
  function GetSocket(c: Client): (res: (Client, Socket))
    ensures res.0.slot == Some(res.1) && res.0.envUrl == c.envUrl
    ensures c.slot.Some? ==> res.0 == c && res.1 == c.slot.value
    ensures c.slot.None? ==>
      && res.0.created == c.created + 1
      && res.1.id == c.created
      && !res.1.connected && res.1.handlers == map[] && res.1.outbox == []
      && res.1.options == DefaultOptions
      && res.1.url == (if Truthy(c.envUrl) then c.envUrl.value else DefaultUrl)
    ensures Valid(c) ==> Valid(res.0)
  {
    match c.slot
    case Some(s) => (c, s)
    case None =>
      var s := Socket(c.created, Or(c.envUrl, Some(DefaultUrl)).value, DefaultOptions, false, map[], []);
      (Client(Some(s), c.created + 1, c.envUrl), s)
  }

  /** `disconnectSocket`: empties the slot; a no-op when it is already empty. */
  function Disconnect(c: Client): (r: Client)
    ensures r.slot.None? && r.created == c.created && r.envUrl == c.envUrl
    ensures c.slot.None? ==> r == c
    ensures Valid(r)
  {
    c.(slot := None)
  }

  /** Calling `getSocket` twice returns the same connection and changes nothing the second time. */
  lemma GetSocketIdempotent(c: Client)
    ensures GetSocket(GetSocket(c).0) == GetSocket(c)
    ensures GetSocket(c).0.slot.Some?
  {
  }

  /** After `disconnectSocket` the next `getSocket` opens a connection distinct from
      every connection opened before. */
  lemma {:induction false} DisconnectThenGetIsFresh(c: Client)
    requires Valid(c)
    ensures var s := GetSocket(Disconnect(c)).1;
      && s.id == c.created && !s.connected && s.handlers == map[] && s.outbox == []
      && (c.slot.Some? ==> s.id != c.slot.value.id)
  {
  }

  /** Stores an updated connection back into the slot. */
  function Put(c: Client, s: Socket): Client {
    c.(slot := Some(s))
  }

  /** The connection every operation below acts on. */
  function Current(c: Client): Socket {
    GetSocket(c).1
  }

  // ---------------------------------------------------------------------------
  // Sending
  // ---------------------------------------------------------------------------

  /** `getSocket().emit(...)`: appends one message to the connection's outbox. */
  function Emit(c: Client, m: Msg): (r: Client)
    ensures r.slot.Some? && r.created >= c.created
    ensures var before := Current(c); var after := r.slot.value;
      && after.outbox == before.outbox + [m]
      && after.id == before.id && after.connected == before.connected
      && after.handlers == before.handlers
    ensures Valid(c) ==> Valid(r)
  {
    var (c1, s) := GetSocket(c);
    Put(c1, s.(outbox := s.outbox + [m]))
  }

  /** `emitCursorMove`: one `cursor-move` message carrying exactly the given payload. */
  function EmitCursorMove(c: Client, roomId: string, position: Position, userId: string, info: UserInfo): (r: Client)
    ensures r.slot.Some?
    ensures r.slot.value.outbox == Current(c).outbox + [CursorMove(roomId, position, userId, info)]
  {
    Emit(c, CursorMove(roomId, position, userId, info))
  }

  /** `emitCursorSelection`: one `cursor-selection` message carrying exactly the given payload. */
  function EmitCursorSelection(c: Client, roomId: string, selection: Selection, userId: string, info: UserInfo): (r: Client)
    ensures r.slot.Some?
    ensures r.slot.value.outbox == Current(c).outbox + [CursorSelection(roomId, selection, userId, info)]
  {
    Emit(c, CursorSelection(roomId, selection, userId, info))
  }

  /** `emitCursorVisibility`: one `cursor-visibility` message carrying exactly the given payload. */
  function EmitCursorVisibility(c: Client, roomId: string, isVisible: bool, userId: string, info: UserInfo): (r: Client)
    ensures r.slot.Some?
    ensures r.slot.value.outbox == Current(c).outbox + [CursorVisibility(roomId, isVisible, userId, info)]
  {
    Emit(c, CursorVisibility(roomId, isVisible, userId, info))
  }

  // ---------------------------------------------------------------------------
  // joinRoom / checkRoomExists
  // ---------------------------------------------------------------------------

  /** `socket.off(t)` followed by `socket.on(t, l)`: `l` becomes the only listener of `t`. */
  function Replace(s: Socket, t: Topic, l: Listener): (r: Socket)
    ensures Listeners(r, t) == [l]
    ensures forall u :: u != t ==> Listeners(r, u) == Listeners(s, u)
    ensures r.id == s.id && r.connected == s.connected && r.outbox == s.outbox
  {
    s.(handlers := s.handlers[t := [l]])
  }

  /** `joinRoom`: replaces the `room-joined` and `room-not-available` listeners by the
      given callbacks and sends one `join-room` message (`isCreating` defaults to false). */
  function JoinRoom(c: Client, roomId: string, userId: string, onSuccess: nat, onError: nat,
                    isCreating: bool := false): (r: Client)
    ensures r.slot.Some? && r.envUrl == c.envUrl
    ensures var before := Current(c); var after := r.slot.value;
      && Listeners(after, RoomJoined) == [Callback(onSuccess)]
      && Listeners(after, RoomNotAvailable) == [Callback(onError)]
      && Listeners(after, RoomExists) == Listeners(before, RoomExists)
      && Listeners(after, RoomNotExists) == Listeners(before, RoomNotExists)
      && Listeners(after, Connected) == Listeners(before, Connected)
      && after.outbox == before.outbox + [JoinRoomMsg(roomId, userId, isCreating)]
      && after.id == before.id && after.connected == before.connected
    ensures Valid(c) ==> Valid(r)
  {
    var (c1, s) := GetSocket(c);
    var s1 := Replace(Replace(s, RoomJoined, Callback(onSuccess)), RoomNotAvailable, Callback(onError));
    Put(c1, s1.(outbox := s1.outbox + [JoinRoomMsg(roomId, userId, isCreating)]))
  }

  /** `checkRoomExists`: replaces the `room-exists` and `room-not-exists` listeners; when
      connected it sends `check-room` at once, otherwise it sends nothing now and adds a
      connect listener (never removed) that sends it on every later connect. */
  function CheckRoomExists(c: Client, roomId: string, onExists: nat, onNotExists: nat): (r: Client)
    ensures r.slot.Some? && r.envUrl == c.envUrl
    ensures var before := Current(c); var after := r.slot.value;
      && Listeners(after, RoomExists) == [Callback(onExists)]
      && Listeners(after, RoomNotExists) == [Callback(onNotExists)]
      && Listeners(after, RoomJoined) == Listeners(before, RoomJoined)
      && Listeners(after, RoomNotAvailable) == Listeners(before, RoomNotAvailable)
      && after.id == before.id && after.connected == before.connected
      && (before.connected ==>
            && after.outbox == before.outbox + [CheckRoom(roomId)]
            && Listeners(after, Connected) == Listeners(before, Connected))
      && (!before.connected ==>
            && after.outbox == before.outbox
            && Listeners(after, Connected) == Listeners(before, Connected) + [SendCheckRoom(roomId)])
    ensures Valid(c) ==> Valid(r)
  {
    var (c1, s) := GetSocket(c);
    var s1 := Replace(Replace(s, RoomExists, Callback(onExists)), RoomNotExists, Callback(onNotExists));
    if s1.connected then
      Put(c1, s1.(outbox := s1.outbox + [CheckRoom(roomId)]))
    else
      Put(c1, s1.(handlers := s1.handlers[Connected := Listeners(s1, Connected) + [SendCheckRoom(roomId)]]))
  }

  /** The connection in the slot reports `connect`: it becomes connected and every
      deferred `check-room` listener sends its message, in registration order. */
  function OnConnect(c: Client): (r: Client)
    ensures r.created == c.created && r.envUrl == c.envUrl && r.slot.Some? == c.slot.Some?
    ensures c.slot.Some? ==>
      var before := c.slot.value; var after := r.slot.value;
      && after.connected && after.id == before.id && after.handlers == before.handlers
      && after.outbox == before.outbox + DeferredSends(Listeners(before, Connected))
  {
    match c.slot
    case None => c
    case Some(s) =>
      Put(c, s.(connected := true, outbox := s.outbox + DeferredSends(Listeners(s, Connected))))
  }

  /** The callbacks a relay response of topic `t` invokes on the connection in the slot. */
  function Respond(c: Client, t: Topic): seq<nat> {
    match c.slot
    case None => []
    case Some(s) => Fired(Listeners(s, t))
  }

  // ---------------------------------------------------------------------------
  // Properties relating several calls
  // ---------------------------------------------------------------------------

  /** However many times `joinRoom` was called before, one `room-joined` (or
      `room-not-available`) response invokes exactly the latest callback, once. */
  lemma JoinRoomSingleShot(c: Client, roomId: string, userId: string, ok: nat, err: nat, isCreating: bool)
    ensures Respond(JoinRoom(c, roomId, userId, ok, err, isCreating), RoomJoined) == [ok]
    ensures Respond(JoinRoom(c, roomId, userId, ok, err, isCreating), RoomNotAvailable) == [err]
  {
    var s := JoinRoom(c, roomId, userId, ok, err, isCreating).slot.value;
    assert Listeners(s, RoomJoined) == [Callback(ok)];
    assert Fired([Callback(ok)]) == [ok];
    assert Fired([Callback(err)]) == [err];
  }

  /** Likewise for `checkRoomExists` and its `room-exists` / `room-not-exists` responses. */
  lemma CheckRoomSingleShot(c: Client, roomId: string, yes: nat, no: nat)
    ensures Respond(CheckRoomExists(c, roomId, yes, no), RoomExists) == [yes]
    ensures Respond(CheckRoomExists(c, roomId, yes, no), RoomNotExists) == [no]
  {
    assert Fired([Callback(yes)]) == [yes];
    assert Fired([Callback(no)]) == [no];
  }

  lemma {:induction false} DeferredSendsAppend(a: seq<Listener>, b: seq<Listener>)
    ensures DeferredSends(a + b) == DeferredSends(a) + DeferredSends(b)
    decreases |a|
  {
    if |a| > 0 {
      assert (a + b)[0] == a[0];
      assert (a + b)[1..] == a[1..] + b;
      DeferredSendsAppend(a[1..], b);
    } else {
      assert a + b == b;
    }
  }

  /** `checkRoomExists` for each id in turn, with the same callbacks. */
  function CheckRooms(c: Client, ids: seq<string>, yes: nat, no: nat): (r: Client)
    ensures c.slot.Some? ==> r.slot.Some?
    decreases |ids|
  {
    if |ids| == 0 then c
    else CheckRooms(CheckRoomExists(c, ids[0], yes, no), ids[1..], yes, no)
  }

  function CheckRoomMsgs(ids: seq<string>): (r: seq<Msg>)
    ensures |r| == |ids|
  {
    if |ids| == 0 then [] else [CheckRoom(ids[0])] + CheckRoomMsgs(ids[1..])
  }

  /** The connection in the slot exists and has not connected yet. */
  predicate Waiting(c: Client) {
    c.slot.Some? && !c.slot.value.connected
  }

  /** The `check-room` messages the next connect event will send. */
  function Pending(c: Client): seq<Msg>
    requires c.slot.Some?
  {
    DeferredSends(Listeners(c.slot.value, Connected))
  }

  /** One call while disconnected: nothing is sent and one deferred send is added. */
  lemma CheckRoomWhileDisconnected(c: Client, id: string, yes: nat, no: nat)
    requires Waiting(c)
    ensures Waiting(CheckRoomExists(c, id, yes, no))
    ensures CheckRoomExists(c, id, yes, no).slot.value.id == c.slot.value.id
    ensures CheckRoomExists(c, id, yes, no).slot.value.outbox == c.slot.value.outbox
    ensures Pending(CheckRoomExists(c, id, yes, no)) == Pending(c) + [CheckRoom(id)]
  {
    var before := c.slot.value;
    assert Current(c) == before;
    var after := CheckRoomExists(c, id, yes, no).slot.value;
    assert Listeners(after, Connected) == Listeners(before, Connected) + [SendCheckRoom(id)];
    DeferredSendsAppend(Listeners(before, Connected), [SendCheckRoom(id)]);
    assert DeferredSends([SendCheckRoom(id)]) == [CheckRoom(id)];
  }

  /** While disconnected, N calls of `checkRoomExists` send nothing and leave N deferred
      listeners, which will send one `check-room` per call, in call order. */
  lemma {:induction false} DeferredCheckRooms(c: Client, ids: seq<string>, yes: nat, no: nat)
    requires Waiting(c)
    ensures Waiting(CheckRooms(c, ids, yes, no))
    ensures CheckRooms(c, ids, yes, no).slot.value.id == c.slot.value.id
    ensures CheckRooms(c, ids, yes, no).slot.value.outbox == c.slot.value.outbox
    ensures Pending(CheckRooms(c, ids, yes, no)) == Pending(c) + CheckRoomMsgs(ids)
    decreases |ids|
  {
    if |ids| > 0 {
      var c1 := CheckRoomExists(c, ids[0], yes, no);
      CheckRoomWhileDisconnected(c, ids[0], yes, no);
      DeferredCheckRooms(c1, ids[1..], yes, no);
      assert CheckRooms(c, ids, yes, no) == CheckRooms(c1, ids[1..], yes, no);
      assert CheckRoomMsgs(ids) == [CheckRoom(ids[0])] + CheckRoomMsgs(ids[1..]);
      assert Pending(c) + [CheckRoom(ids[0])] + CheckRoomMsgs(ids[1..]) == Pending(c) + CheckRoomMsgs(ids);
    } else {
      assert CheckRoomMsgs(ids) == [];
    }
  }

  /** End to end: from a fresh, unconnected connection, N calls then one connect send
      exactly the N `check-room` messages; a second connect sends all N again, because
      the deferred listeners are never removed. The model has no transport-level
      disconnect event, so the second `OnConnect` on an already connected socket stands
      for socket.io's automatic reconnect, which raises `connect` again. */
  lemma DeferredCheckRoomsOnConnect(c: Client, ids: seq<string>, yes: nat, no: nat)
    requires Waiting(c) && Listeners(c.slot.value, Connected) == []
    ensures var once := OnConnect(CheckRooms(c, ids, yes, no));
      && once.slot.Some? && OnConnect(once).slot.Some?
      && once.slot.value.outbox == c.slot.value.outbox + CheckRoomMsgs(ids)
      && OnConnect(once).slot.value.outbox == c.slot.value.outbox + CheckRoomMsgs(ids) + CheckRoomMsgs(ids)
  {
    DeferredCheckRooms(c, ids, yes, no);
    assert DeferredSends([]) == [];
  }
}

=== FILE: session.dfy ===
/** The shared session state of the editor page (`src/app/editor/page.tsx`):
    language, code, input, output and the running flag, changed by local actions
    (which also send a relay message) and by messages from the other participant
    (which overwrite the field: the last write wins). */
module Session {
  import opened Base
  import Relay
  import Execution

  /** The languages with a starter snippet; only these can be selected. */
  const Languages: set<string> := {"cpp", "javascript", "typescript", "python", "java", "c", "rust", "go"}

  /** The starter snippet of every supported language (the snippets are data). */
  type StarterTable = t: map<string, string> | t.Keys == Languages
    witness map l | l in Languages :: ""

  datatype Editor = Editor(
    language: string,
    code: string,
    input: string,
    output: string,
    isRunning: bool,
    roomId: string,          // the room id from the shared store
    relay: Relay.Client)

  /** The fields both participants share; everything but the relay connection. */
  function Shared(e: Editor): (string, string, string, string, bool) {
    (e.language, e.code, e.input, e.output, e.isRunning)
  }

  /** The messages the page has sent so far. */
  function Sent(e: Editor): seq<Relay.Msg> {
    Relay.Current(e.relay).outbox
  }

  /** The page when it opens. */
  function Init(starter: StarterTable, roomId: string, relay: Relay.Client): (e: Editor)
    ensures e.language == "javascript" && e.code == starter["javascript"]
    ensures e.input == "" && e.output == "" && !e.isRunning
    ensures e.roomId == roomId && e.relay == relay
  {
    Editor("javascript", starter["javascript"], "", "", false, roomId, relay)
  }

  /** The language switch both the local and the remote path perform: only a
      supported language is taken, and it brings its starter snippet. */
  function SwitchLanguage(e: Editor, starter: StarterTable, language: string): (r: Editor)
    ensures language in Languages ==> r == e.(language := language, code := starter[language])
    ensures language !in Languages ==> r == e
  {
    if language in starter then e.(language := language, code := starter[language]) else e
  }

  /** Local language change: `change-language` is always sent, even for an unsupported value. */
  function LocalLanguageChange(e: Editor, starter: StarterTable, language: string): (r: Editor)
    ensures Sent(r) == Sent(e) + [Relay.ChangeLanguage(language, e.roomId)]
    ensures language in Languages ==> r.language == language && r.code == starter[language]
    ensures language !in Languages ==> Shared(r) == Shared(e)
    ensures r.input == e.input && r.output == e.output && r.isRunning == e.isRunning
  {
    var sent := e.(relay := Relay.Emit(e.relay, Relay.ChangeLanguage(language, e.roomId)));
    assert Sent(sent) == Sent(e) + [Relay.ChangeLanguage(language, e.roomId)];
    SwitchLanguage(sent, starter, language)
  }

  /** Remote `language-changed`: the same gate, nothing sent. */
  function RemoteLanguageChanged(e: Editor, starter: StarterTable, language: string): (r: Editor)
    ensures r.relay == e.relay
    ensures language in Languages ==> r.language == language && r.code == starter[language]
    ensures language !in Languages ==> r == e
    ensures r.input == e.input && r.output == e.output && r.isRunning == e.isRunning
  {
    SwitchLanguage(e, starter, language)
  }

  /** Local edit of the code: the code is replaced and one `code-changed` is sent. */
  function LocalCodeChange(e: Editor, code: string): (r: Editor)
    ensures r.code == code
    ensures Sent(r) == Sent(e) + [Relay.CodeChanged(e.roomId, code)]
    ensures r.language == e.language && r.input == e.input && r.output == e.output && r.isRunning == e.isRunning
  {
    e.(code := code, relay := Relay.Emit(e.relay, Relay.CodeChanged(e.roomId, code)))
  }

  /** Local edit of the input: the input is replaced and one `input-changed` is sent. */
  function LocalInputChange(e: Editor, input: string): (r: Editor)
    ensures r.input == input
    ensures Sent(r) == Sent(e) + [Relay.InputChanged(e.roomId, input)]
    ensures r.language == e.language && r.code == e.code && r.output == e.output && r.isRunning == e.isRunning
  {
    e.(input := input, relay := Relay.Emit(e.relay, Relay.InputChanged(e.roomId, input)))
  }

  /** The Clear button: the input becomes empty and nothing is sent, so the other
      participant keeps the old input. */
  function ClearInput(e: Editor): (r: Editor)
    ensures r.input == "" && r.relay == e.relay
    ensures r.language == e.language && r.code == e.code && r.output == e.output && r.isRunning == e.isRunning
  {
    e.(input := "")
  }

  /** Remote `code-changed`: the code is replaced wholesale. */
  function RemoteCodeChanged(e: Editor, code: string): (r: Editor)
    ensures r.code == code && r.relay == e.relay
    ensures r.language == e.language && r.input == e.input && r.output == e.output && r.isRunning == e.isRunning
  {
    e.(code := code)
  }

  /** Remote `input-changed`: the input is replaced wholesale. */
  function RemoteInputChanged(e: Editor, input: string): (r: Editor)
    ensures r.input == input && r.relay == e.relay
    ensures r.language == e.language && r.code == e.code && r.output == e.output && r.isRunning == e.isRunning
  {
    e.(input := input)
  }

  /** Remote `code-run`: language (not checked against the supported set), code,
      input and output are all overwritten and the run is over. */
  function RemoteCodeRun(e: Editor, output: string, language: string, code: string, input: string): (r: Editor)
    ensures Shared(r) == (language, code, input, output, false)
    ensures r.relay == e.relay && r.roomId == e.roomId
  {
    e.(language := language, code := code, input := input, output := output, isRunning := false)
  }

  /** Remote `execution-status`: the running flag takes the sent value. */
  function RemoteExecutionStatus(e: Editor, isRunning: bool): (r: Editor)
    ensures r.isRunning == isRunning && r.relay == e.relay
    ensures r.language == e.language && r.code == e.code && r.input == e.input && r.output == e.output
  {
    e.(isRunning := isRunning)
  }

  // ---------------------------------------------------------------------------
  // Running code
  // ---------------------------------------------------------------------------

  /** What the sandbox call produced: a throw (rendered as text), or a reply whose
      `run` may be missing, with its optional `message`. */
  datatype RunResponse = Failed(error: string) | Replied(run: Option<Execution.RunData>, message: Option<string>)

  const ErrorPrefix: string := "Error executing code: "
  const ExecutionFailed: string := "Execution failed."

  /** The Run button is enabled only while no run is in progress. */
  predicate CanRun(e: Editor) {
    !e.isRunning
  }

  /** `runCode`: clears the output, marks the run as started (and says so to the other
      participant), then handles the sandbox's response. */
  function RunCode(e: Editor, response: RunResponse): (r: Editor)
    ensures r.language == e.language && r.code == e.code && r.input == e.input && r.roomId == e.roomId
    ensures response.Replied? && response.run.Some? ==>
      var out := Execution.SelectResult(response.run);
      && r.output == out && out != "" && !r.isRunning
      && Sent(r) == Sent(e) + [Relay.ExecutionStatus(e.roomId, true),
                               Relay.RunCode(e.roomId, out, e.language, e.input, e.code),
                               Relay.ExecutionStatus(e.roomId, false)]
    ensures response.Replied? && response.run.None? ==>
      && r.output == (if Truthy(response.message) then response.message.value else ExecutionFailed)
      && r.isRunning
      && Sent(r) == Sent(e) + [Relay.ExecutionStatus(e.roomId, true)]
    ensures response.Failed? ==>
      var out := ErrorPrefix + response.error;
      && r.output == out && !r.isRunning
      && Sent(r) == Sent(e) + [Relay.ExecutionStatus(e.roomId, true),
                               Relay.RunCode(e.roomId, out, e.language, e.input, e.code),
                               Relay.ExecutionStatus(e.roomId, false)]
  {
    var started := e.(output := "", isRunning := true,
                      relay := Relay.Emit(e.relay, Relay.ExecutionStatus(e.roomId, true)));
    match response
    case Replied(None, message) =>
      started.(output := Or(message, Some(ExecutionFailed)).value)
    case Replied(Some(run), _) =>
      var out := Execution.SelectResult(Some(run));
      var shown := started.(output := out,
                            relay := Relay.Emit(started.relay, Relay.RunCode(e.roomId, out, e.language, e.input, e.code)));
      shown.(isRunning := false, relay := Relay.Emit(shown.relay, Relay.ExecutionStatus(e.roomId, false)))
    case Failed(err) =>
      var out := ErrorPrefix + err;
      var shown := started.(output := out,
                            relay := Relay.Emit(started.relay, Relay.RunCode(e.roomId, out, e.language, e.input, e.code)));
      shown.(isRunning := false, relay := Relay.Emit(shown.relay, Relay.ExecutionStatus(e.roomId, false)))
  }

  /** A reply without `run` leaves the Run button disabled: nothing local re-enables
      it, only a later `code-run` or `execution-status` from the other participant. */
  lemma MissingRunKeepsRunDisabled(e: Editor, message: Option<string>, code: string, input: string,
                                   starter: StarterTable, language: string)
    ensures var r := RunCode(e, Replied(None, message));
      && !CanRun(r)
      && !CanRun(LocalCodeChange(r, code)) && !CanRun(LocalInputChange(r, input))
      && !CanRun(ClearInput(r)) && !CanRun(LocalLanguageChange(r, starter, language))
  {
  }

  // ---------------------------------------------------------------------------
  // Replication: what the other participant does with a message
  // ---------------------------------------------------------------------------

  /** The receiving page's handler for a message the relay forwards (the relay turns
      `change-language` into `language-changed` and `run-code` into `code-run`);
      messages handled elsewhere leave the session unchanged. */
  function Receive(e: Editor, starter: StarterTable, m: Relay.Msg): Editor {
    match m
    case ChangeLanguage(language, _) => RemoteLanguageChanged(e, starter, language)
    case CodeChanged(_, code) => RemoteCodeChanged(e, code)
    case InputChanged(_, input) => RemoteInputChanged(e, input)
    case RunCode(_, output, language, input, code) => RemoteCodeRun(e, output, language, code, input)
    case ExecutionStatus(_, running) => RemoteExecutionStatus(e, running)
    case _ => e
  }

  /** Applies received messages in order. */
  function ReceiveAll(e: Editor, starter: StarterTable, ms: seq<Relay.Msg>): Editor
    decreases |ms|
  {
    if |ms| == 0 then e else ReceiveAll(Receive(e, starter, ms[0]), starter, ms[1..])
  }

  /** A local edit, delivered to the other participant, gives it the same code and input;
      a language change gives both the same language and code. */
  lemma LocalEditsReplicate(a: Editor, b: Editor, starter: StarterTable, code: string, input: string, language: string)
    ensures var a1 := LocalCodeChange(a, code);
      Receive(b, starter, Sent(a1)[|Sent(a1)| - 1]).code == a1.code
    ensures var a1 := LocalInputChange(a, input);
      Receive(b, starter, Sent(a1)[|Sent(a1)| - 1]).input == a1.input
    ensures var a1 := LocalLanguageChange(a, starter, language);
      var b1 := Receive(b, starter, Sent(a1)[|Sent(a1)| - 1]);
      language in Languages ==> b1.language == a1.language && b1.code == a1.code
  {
  }

  /** A successful run, delivered in order, leaves the other participant with the same
      language, code, input and output, and not running. */
  lemma RunReplicates(a: Editor, b: Editor, starter: StarterTable, run: Execution.RunData, message: Option<string>)
    ensures var a1 := RunCode(a, Replied(Some(run), message));
      var batch := Sent(a1)[|Sent(a)|..];
      Shared(ReceiveAll(b, starter, batch)) == Shared(a1)
  {
    var a1 := RunCode(a, Replied(Some(run), message));
    var batch := Sent(a1)[|Sent(a)|..];
    assert batch == [Relay.ExecutionStatus(a.roomId, true),
                     Relay.RunCode(a.roomId, a1.output, a.language, a.input, a.code),
                     Relay.ExecutionStatus(a.roomId, false)];
    var b1 := Receive(b, starter, batch[0]);
    var b2 := Receive(b1, starter, batch[1]);
    var b3 := Receive(b2, starter, batch[2]);
    assert batch[1..][0] == batch[1] && batch[1..][1..][0] == batch[2];
    assert batch[1..][1..][1..] == [];
    assert ReceiveAll(b, starter, batch) == ReceiveAll(b1, starter, batch[1..]);
    assert ReceiveAll(b1, starter, batch[1..]) == ReceiveAll(b2, starter, batch[1..][1..]);
    assert ReceiveAll(b2, starter, batch[1..][1..]) == b3;
  }

  /** Last write wins: of two code updates only the later one survives, whatever came before. */
  lemma {:induction false} LastWriteWins(e: Editor, starter: StarterTable, ms: seq<Relay.Msg>)
    requires |ms| > 0 && ms[|ms| - 1].CodeChanged?
    ensures ReceiveAll(e, starter, ms).code == ms[|ms| - 1].code
    decreases |ms|
  {
    if |ms| > 1 {
      assert ms[1..][|ms[1..]| - 1] == ms[|ms| - 1];
      LastWriteWins(Receive(e, starter, ms[0]), starter, ms[1..]);
    } else {
      assert ms[1..] == [];
    }
  }
}
